=== FILE: README.md ===
# kolide-timeline, modelled in Dafny

The repository has two command-line tools.

- `kolide-timeline` rebuilds one chronological timeline from a directory of Kolide audit snapshots. A snapshot is a JSON file holding the rows added since the previous poll. The tool walks the directory and reads every `.json` file. Each file is decoded as an object, or failing that as an array whose first element is taken. Snapshots without added rows are dropped. Every added row is rendered as a `line`. The tool emits:
  - a derived event for every field value that parses as an `int64` strictly between 1620836044 and the current time;
  - a poll event for every line not polled before in the run, except in snapshots whose display name contains `events`.

  The events are then sorted by timestamp, each gets a formatted time, and the result is written as CSV.
- `copy-from-gs` downloads one device's snapshot files from a Google Cloud Storage bucket listing. It skips objects that are:
  - in an excluded sub-directory;
  - created before the cutoff;
  - 128 bytes or smaller;
  - not tagged with the device;
  - already present locally with the same size.

The model is a set of pure functions over immutable data, one module per concern:

| file | module | models |
|---|---|---|
| `wrappers.dfy` | `Wrappers` | `Option` and `Result` |
| `strings.dfy` | `Strings` | Go's `strings.Split`, `Join`, `ReplaceAll`, `TrimSpace`, `Contains`, `HasSuffix` |
| `decimal.dfy` | `Decimal` | `strconv.ParseInt(s, 10, 64)` and `%d` |
| `snapshot.dfy` | `Snapshots` | the snapshot record, `rowString`, the display name |
| `loader.dfy` | `Loader` | `readFile` and the directory walk |
| `extraction.dfy` | `Extraction` | the event loop with its `polled` set |
| `assembly.dfy` | `Assembly` | the sort, the time stamping, the whole run |
| `sync.dfy` | `Sync` | `copy-from-gs`'s configuration and `syncFiles` |

A Go `map[string]string` row is modelled as its key/value pairs, with distinct keys, in the order a `range` over the map visits them. The code ranges over the same map twice, once in `rowString` and once for the derived events; the model uses the one order for both (see "## Left out").

Some statements are about the extraction as a whole. For those the model keeps a `Kind` tag on each emitted event. The CSV cannot tell the kinds apart: a field whose key is literally `poll` yields derived events whose relation is `poll` too.

Three pieces are reference definitions that the loop is proved against: `PollableLines`, `AllDerived` and `Selected`.

Behaviour of the code that the model keeps, including its rough edges:

- **Repeated rows.** Derived events are never deduplicated. Only poll events are, and only by their exact `line`. Take two single-row snapshots whose rows render as the same line, the first under a display name without `events`. They give one poll event in all, plus each row's derived events once per snapshot: 3 events for a row with one in-window timestamp field (`Extraction.RepeatedRowPolledOnce`). For a row with two or more non-empty values, rendering the same line generally needs both decodes to visit the fields in the same order. When the two lines differ, for instance because the decodes visited the fields in different orders, and neither display name contains `events`, each snapshot gets its own poll event besides its derived events: 4 events for a row with one timestamp field (`Extraction.ReorderedRowPolledTwice`, `Snapshots.VisitingOrderChangesLine`). Under display names that contain `events`, no poll event is emitted at all.
- **Decode errors.** When both decodings fail, for instance on malformed JSON or on an object with a mistyped field, `readFile` logs both decode errors and returns the object error alone (`Loader.BothFailReportsObjectError`).
- **Empty array.** When the array decoding succeeds with no elements, `readFile` panics on `outArr[0]`. This is modelled as `EmptyArrayPanic`.
- **Null element.** When the array's first element is JSON `null`, `readFile` returns a nil snapshot and no error, and the walk panics at `of.DiffResults`. This is modelled as `NilSnapshotPanic`, a fatal failure of that file (`Loader.ArrayFirstElementDecides`).
- **Walk errors.** An error handed to the walk function stops the walk, but `main` only logs it and builds the timeline from what was read before it (`Assembly.RunSurvivesWalkError`). A file that cannot be read or decoded is fatal (`Assembly.RunAbortsOnBadFile`).
- **Sort stability.** `sort.Slice` is not stable. The model promises a sorted permutation only, and proves that the timestamp column is the same for every sorted permutation (`Assembly.RunTimesAreDetermined`).
- **Field order.** `rowString` follows map iteration order, so the field order is part of the modelled row, and the same map can render as different lines.

## Model

| member | source | states |
|---|---|---|
| `Snapshots.RowString` | cmd/kolide-timeline/main.go:40-49 | `rowString`: the line of a row; it neither starts nor ends with white space |
| `Snapshots.DisplayName` | cmd/kolide-timeline/main.go:114 | the snapshot name with every `pack:kolide_log_pipeline:` removed; never longer than the name, and the name itself when it holds no occurrence |
| `Strings.ReplaceAll` | cmd/kolide-timeline/main.go:114 | `strings.ReplaceAll`; a replacement no longer than the pattern never lengthens the string |
| `Snapshots.RowStringIsTrimmedJoin` | cmd/kolide-timeline/main.go:40-49 | the line is the `key: TrimSpace(value)` texts of the fields with a non-empty value, in visiting order, joined by single spaces and trimmed as a whole |
| `Snapshots.RowStringOfTidyRow` | cmd/kolide-timeline/main.go:40-49 | when no key starts with white space and no kept value is blank, the outer trim removes nothing: the line is exactly the joined texts |
| `Snapshots.RowStringEmptyIff` | cmd/kolide-timeline/main.go:40-49 | the line is empty if and only if every value of the row is the empty string |
| `Snapshots.VisitingOrderChangesLine` | cmd/kolide-timeline/main.go:40-49 | two fields with non-empty values that neither start nor end with white space, and keys starting with different non-space characters, give different lines in the two visiting orders |
| `Snapshots.TwoFieldLine` | cmd/kolide-timeline/main.go:40-49 | a row of two fields with clean, non-empty values renders as `k1: v1 k2: v2` |
| `Snapshots.DisplayNameRemovesEveryOccurrence` | cmd/kolide-timeline/main.go:114 | the display name is the name with every occurrence of `pack:kolide_log_pipeline:` removed: the pieces between occurrences, concatenated, none of them containing the prefix |
| `Snapshots.DisplayNameWithoutPrefix` | cmd/kolide-timeline/main.go:114 | a name without the prefix is its own display name |
| `Snapshots.DisplayNameOfPrefixed` | cmd/kolide-timeline/main.go:114 | a leading prefix is dropped and the rest of the name is processed the same way |
| `Strings.ReplaceAllIsSplitJoin` | cmd/kolide-timeline/main.go:114 | replacing every occurrence equals splitting at the occurrences and joining with the replacement |
| `Strings.TrimSpaceIsSlice` | cmd/kolide-timeline/main.go:46-48 | `TrimSpace` keeps a contiguous slice of its input with only white space on either side of it |
| `Strings.TrimSpaceEmptyIffAllSpace` | cmd/kolide-timeline/main.go:46-48 | `TrimSpace` gives the empty string exactly for strings made only of white space |
| `Strings.TrimSpaceDropsTrailingSpace` | cmd/kolide-timeline/main.go:46-48 | the space the builder leaves after the last field does not change the trimmed line |
| `Loader.ReadFile` | cmd/kolide-timeline/main.go:51-73 | an unreadable file fails with its I/O error; the object decoding wins when it succeeds; otherwise the array's first element, the empty-array panic, the nil-snapshot panic for a `null` first element, or (both failing) the object error |
| `Loader.ArrayFirstElementDecides` | cmd/kolide-timeline/main.go:62-72 | when the object decoding fails, only the array's first element matters: a snapshot there is loaded and a `null` there is fatal, whatever follows it |
| `Loader.ObjectAndArrayAgree` | cmd/kolide-timeline/main.go:57-70 | a snapshot stored as an object and the same snapshot stored first in an array load identically |
| `Loader.BothFailReportsObjectError` | cmd/kolide-timeline/main.go:62-68 | when both decodings fail the result depends only on the object error: the array error is not returned |
| `Loader.Walk` | cmd/kolide-timeline/main.go:86-104 | every retained snapshot has at least one added row, and there are no more snapshots than entries |
| `Loader.WalkIgnoresNonJson` | cmd/kolide-timeline/main.go:91-93 | entries whose name does not end in `.json` are never read: removing them, whatever they hold, leaves the walk's result unchanged |
| `Loader.WalkAppend` | cmd/kolide-timeline/main.go:86-104 | the walk is a left-to-right scan: an error-free prefix contributes its snapshots first and the rest of the walk decides the remainder |
| `Loader.WalkDropsEmptySnapshot` | cmd/kolide-timeline/main.go:100-102 | a loaded snapshot without added rows is dropped |
| `Loader.WalkKeepsSnapshotWithRows` | cmd/kolide-timeline/main.go:100-102 | a loaded snapshot with added rows is retained ahead of everything retained after it |
| `Loader.WalkFailsOnBadFile` | cmd/kolide-timeline/main.go:96-99 | a `.json` file that cannot be loaded is fatal, whatever follows it |
| `Loader.WalkStopsAtError` | cmd/kolide-timeline/main.go:87-90 | an error passed to the walk function ends the walk with that error and nothing after it is read |
| `Loader.WalkedSnapshotsComeFromJsonFiles` | cmd/kolide-timeline/main.go:86-104 | every retained snapshot is what some visited `.json` entry loaded to |
| `Decimal.ParseInt64` | cmd/kolide-timeline/main.go:118 | a string is accepted exactly when it is an optional sign and at least one digit whose signed value lies in the `int64` range, and it then reads as that value |
| `Decimal.ParseAcceptsLeadingZero` | cmd/kolide-timeline/main.go:118 | leading zeros are accepted and do not change the value (`"01"` reads as 1) |
| `Decimal.ParseNegativeZero` | cmd/kolide-timeline/main.go:118 | `"-0"` is accepted and reads as 0 |
| `Decimal.DigitsValueLeadingZero` | cmd/kolide-timeline/main.go:118 | a leading zero does not change the value of a digit string |
| `Decimal.ParseFormatRoundTrip` | cmd/kolide-timeline/main.go:118 | every `int64` printed in decimal parses back to itself |
| `Decimal.ParsePlusSigned` | cmd/kolide-timeline/main.go:118 | a leading `+` is accepted |
| `Decimal.ParseRejectsOverflow` | cmd/kolide-timeline/main.go:118 | one past the largest `int64` is rejected |
| `Decimal.ParseRejectsBareSign` | cmd/kolide-timeline/main.go:118 | a sign not followed by a digit is rejected |
| `Extraction.DerivedEvents` | cmd/kolide-timeline/main.go:117-128 | every derived event of a row carries the snapshot's display name, the row's line, an empty time text and a timestamp strictly inside the window; there are no more of them than fields |
| `Extraction.DerivedEventsIff` | cmd/kolide-timeline/main.go:117-128 | an event is derived from a row if and only if some field's value parses to its timestamp strictly inside the window and its relation is that field's key |
| `Extraction.NoDerivedOutsideWindow` | cmd/kolide-timeline/main.go:118-119 | a value that is not an integer, is at most 1620836044, or is not before `now` yields nothing |
| `Extraction.ExtractRowPolls` | cmd/kolide-timeline/main.go:129-145 | one row adds a poll event exactly when its line is not yet polled and the name lacks `events`, and records the line exactly then |
| `Extraction.ExtractRowDeriveds` | cmd/kolide-timeline/main.go:117-128 | one row adds all of its derived events, whatever the `polled` set holds |
| `Extraction.ExtractAllConsistent` | cmd/kolide-timeline/main.go:110-147 | the loop keeps its invariant: `polled` is exactly the set of polled lines, each polled once, never under an `events` name |
| `Extraction.ExtractAllPolled` | cmd/kolide-timeline/main.go:112-147 | after the loop `polled` holds exactly the lines of rows of snapshots whose display name lacks `events` |
| `Extraction.OnePollPerLine` | cmd/kolide-timeline/main.go:112-147 | over the whole run each eligible line gets exactly one poll event and no other line gets any |
| `Extraction.PollEventsAreMarked` | cmd/kolide-timeline/main.go:134-144 | no poll event comes from a snapshot whose name contains "events", and every poll event has the relation "poll" |
| `Extraction.Step` | cmd/kolide-timeline/main.go:117-145 | one loop iteration: the row's derived events are appended, then at most one further event; the poll events grow by the row's poll event exactly when its line was not yet polled and the name lacks `events`, and by nothing otherwise; the derived events grow by exactly the row's; `polled` changes only at the row's line, which ends up recorded exactly when it was already or the name lacks `events` |
| `Extraction.ExtractRow` | cmd/kolide-timeline/main.go:115-146 | one added row: events are only appended, and `polled` only gains the row's own line |
| `Extraction.ExtractRows` | cmd/kolide-timeline/main.go:115-146 | the rows of one snapshot: events are only appended and `polled` only grows |
| `Extraction.ExtractAll` | cmd/kolide-timeline/main.go:113-147 | the loop over all snapshots: events are only appended and `polled` only grows |
| `Extraction.Extract` | cmd/kolide-timeline/main.go:110-147 | the run's events; its derived events are those of every row of every retained snapshot, in order, exactly as if there were no `polled` set |
| `Extraction.EveryEventHasOrigin` | cmd/kolide-timeline/main.go:110-147 | every emitted event is a poll or derived event of some row of some retained snapshot, under that snapshot's display name and time |
| `Extraction.RepeatedRowPolledOnce` | cmd/kolide-timeline/main.go:113-146 | for two single-row snapshots whose rows render as the same line, the first name lacking `events`: the line is polled once, at the first snapshot's time, and each row's derived events are emitted for its snapshot |
| `Extraction.ReorderedRowPolledTwice` | cmd/kolide-timeline/main.go:113-146 | for two single-row snapshots whose names lack `events`: when the later row renders as a different line, for instance because its fields were visited in another order, both snapshots get a poll event, each after its own derived events |
| `Assembly.SortByTime` | cmd/kolide-timeline/main.go:149-151 | the result is in non-decreasing timestamp order and is a permutation of the input |
| `Assembly.SortedPermutationsAgree` | cmd/kolide-timeline/main.go:149-151 | any two sorted permutations of the same events have the same timestamp column, so the unstable sort's tie order cannot change it |
| `Assembly.Run` | cmd/kolide-timeline/main.go:84-155 | the run aborts exactly when the walk hits a fatal read failure; otherwise the events are sorted and each carries the formatted time of its own timestamp |
| `Assembly.RunIsSortedPermutation` | cmd/kolide-timeline/main.go:105-155 | the timeline is exactly the extracted events, stamped and sorted by timestamp, and it keeps the logged walk error |
| `Assembly.RunTimesAreDetermined` | cmd/kolide-timeline/main.go:149-151 | although the sort is unstable, any sorted arrangement of the stamped events has the same timestamp column as the timeline |
| `Assembly.RunEventsHaveOrigin` | cmd/kolide-timeline/main.go:110-155 | every output event is the stamped form of an event of some row of some retained snapshot |
| `Assembly.RunAbortsOnBadFile` | cmd/kolide-timeline/main.go:96-99 | a `.json` file that cannot be loaded ends the run without a timeline |
| `Assembly.RunSurvivesWalkError` | cmd/kolide-timeline/main.go:86-107 | a walk error is only logged: the timeline is the one built from the entries before it |
| `Sync.Config` | cmd/copy-from-gs/main.go:34-60 | the configuration `main` builds: the given prefix and device, the cutoff `maxAge` before now, and an exclude list that joins back to the setting |
| `Sync.ExcludeList` | cmd/copy-from-gs/main.go:55-60 | the exclude setting splits into at least one piece, no piece contains a comma, and joining the pieces with commas gives the setting back |
| `Sync.EmptyExcludeSetting` | cmd/copy-from-gs/main.go:60 | an empty setting gives the list `[""]`, whose segment `//` excludes every object name containing `//` |
| `Sync.DefaultConfigSkipsDoubleSlash` | cmd/copy-from-gs/main.go:55-96 | with no exclude setting, every object whose name contains `//` is skipped as excluded |
| `Sync.SingleExcludeSetting` | cmd/copy-from-gs/main.go:60 | a setting without a comma excludes exactly that one sub-directory |
| `Sync.AnyExcluded` | cmd/copy-from-gs/main.go:87-93 | an object is excluded if and only if its name contains `/d/` for some listed `d` |
| `Sync.Decide` | cmd/copy-from-gs/main.go:87-115 | an object is fetched if and only if it is not excluded, not created before the cutoff, larger than 128 bytes, contains `device-<id>`, and has no local file of the same size |
| `Sync.CutoffIsStrict` | cmd/copy-from-gs/main.go:95-97 | an object created before the cutoff is never fetched; one created exactly at the cutoff is not skipped as stale |
| `Sync.SizeThresholdInclusive` | cmd/copy-from-gs/main.go:75-102 | an object of 128 bytes is never fetched; one of 129 bytes passes the size check |
| `Sync.DeviceTagIsPrefixMatch` | cmd/copy-from-gs/main.go:104-107 | the device check is a substring test: for a positive `id` and a digit `d`, an object tagged for device `10*id + d` also passes the check for device `id` |
| `Sync.DeviceOneMatchesDeviceTwelve` | cmd/copy-from-gs/main.go:104-107 | concretely, `logs/device-12/a.json` passes the check for device 1 |
| `Sync.LocalSizeDecides` | cmd/copy-from-gs/main.go:109-115 | for an otherwise selected object, an existing local file prevents the download exactly when its size equals the remote size |
| `Sync.SyncLoop` | cmd/copy-from-gs/main.go:71-138 | whenever the loop ends normally, the slice returned is empty, the names downloaded before are kept in front, and at most one name is downloaded per listing answer |
| `Sync.SyncFiles` | cmd/copy-from-gs/main.go:71-139 | `syncFiles` over a whole listing: when it ends normally it returns an empty slice and has downloaded at most one object per listing answer |
| `Sync.SyncLoopFetchesSelected` | cmd/copy-from-gs/main.go:77-137 | over an error-free listing of distinct names, with downloads that succeed, the loop downloads exactly the objects selected against the local files present at the start, in listing order |
| `Sync.SyncFilesFetchesSelected` | cmd/copy-from-gs/main.go:71-139 | over an error-free listing of distinct names, with downloads that succeed, `syncFiles` downloads exactly the selected objects and returns an empty slice with no error |
| `Sync.ListErrorStops` | cmd/copy-from-gs/main.go:78-85 | a listing error ends the loop: what the listing holds after it makes no difference |
| `Sync.FetchFailureAborts` | cmd/copy-from-gs/main.go:117-126 | a failed download of a selected object ends the process at that object |

## Left out

- I/O is outside the model. A directory walk is the sequence of entries `filepath.Walk` visits. A file's content is modelled as the answers of the two JSON decodings. The bucket listing is the sequence of iterator answers. Local files are a map from name to size, and a download is a function from name to bytes written or a fatal error.
- JSON decoding itself is not modelled. The `Decorations`, `KolideDecorations` and `Removed` fields are carried in `Snapshot`, and nothing reads them.
- The CSV writer is not modelled. Its failure is fatal and depends on standard output alone.
- `klog` and `log` output is not modelled.
- Formatting a Unix time as `time.UnixDate` needs the local time zone and the calendar tables of the Go library. It is the parameter `utc` of `Assembly.Run`.
- `Extraction.DerivedEvents`: the source reads the clock once per field (main.go:119). The model uses one `now` for the whole run, as if the run took no time.
- `Extraction.DerivedEvents`: the code ranges over a row's map twice, in `rowString` (main.go:42) and for the derived events (main.go:117), and Go picks each order independently. The model uses one visiting order for both, so the order of a row's derived events before the sort is one of the possible orders, not every one. `Extraction.Extract`, `Extraction.RepeatedRowPolledOnce` and `Extraction.ReorderedRowPolledTwice` inherit this. The order is lost anyway: the unstable sort reorders all events.
- Go's `int64` conversion of `time.Time` and the monotonic clock are not modelled. Creation times and the cutoff are integers.
- The duration arithmetic `*maxAgeFlag * -1` is the subtraction `now - maxAge` in `Sync.Cutoff`, without overflow.
- Flags and environment variables (copy-from-gs main.go:20-58) are not modelled. The bucket name, prefix and device id are plain inputs.
- The storage client, and the listing prefix it is given, are not modelled.
- Directory creation and file permissions are not modelled (copy-from-gs main.go:129-134). Writing a file that already exists with mode 0444 fails in practice; the model treats every write as succeeding or as the fatal failure returned by `fetch`.
- The `defer rc.Close()` inside the loop keeps every reader open until `syncFiles` returns. Resources are not modelled.
- `Assembly.SortByTime`: `sort.Slice` may leave events with equal timestamps in any order. The model fixes one sorted permutation. `Assembly.SortedPermutationsAgree` states what every permitted order shares with it, namely the timestamp column.
- `Sync.SyncLoopFetchesSelected`: stated for listings without errors or repeated names, and with downloads that succeed. `Sync.ListErrorStops` and `Sync.FetchFailureAborts` cover the other two cases separately.
- `Sync.SyncFilesFetchesSelected`: the same hypotheses as `Sync.SyncLoopFetchesSelected`: no listing error, no repeated name, every download succeeds. `Sync.ListErrorStops` and `Sync.FetchFailureAborts` cover listing errors and failed downloads.

=== FILE: assembly.dfy ===
/**
 The end of `main` in cmd/kolide-timeline/main.go: the emitted events are
 sorted by timestamp with an unstable sort, every event gets its formatted
 time, and the result is the timeline written as CSV. Formatting a Unix time
 depends on the local time zone and the calendar tables of the Go library,
 so it is a parameter here.
 */
module Assembly {
  import opened Wrappers
  import opened Decimal
  import opened Loader
  import opened Extraction

  /* ---------------------------------------------------------------------- */
  /* Sequences and permutations                                              */
  /* ---------------------------------------------------------------------- */

  /** Applies `f` to every element, keeping the order. */
  function Map<A, B>(s: seq<A>, f: A -> B): (r: seq<B>)
    ensures |r| == |s|
    ensures forall i :: 0 <= i < |s| ==> r[i] == f(s[i])
  {
    if |s| == 0 then [] else [f(s[0])] + Map(s[1..], f)
  }

  /** Every element of an image is the image of an element. */
  lemma MapMember<A, B>(s: seq<A>, f: A -> B, y: B) returns (x: A)
    requires y in Map(s, f)
    ensures x in s && y == f(x)
  {
    var i :| 0 <= i < |s| && Map(s, f)[i] == y;
    x := s[i];
  }

  lemma MapAppend<A, B>(a: seq<A>, b: seq<A>, f: A -> B)
    ensures Map(a + b, f) == Map(a, f) + Map(b, f)
  {
  }

  /** A position holding a value that occurs in the sequence. */
  lemma IndexOf<T>(b: seq<T>, x: T) returns (k: int)
    requires x in multiset(b)
    ensures 0 <= k < |b| && b[k] == x
  {
    k :| 0 <= k < |b| && b[k] == x;
  }

  /** Dropping the head of a sequence removes one copy of it from the multiset. */
  lemma DropHead<T>(a: seq<T>)
    requires |a| > 0
    ensures multiset(a[1..]) == multiset(a) - multiset{a[0]}
  {
    assert a == [a[0]] + a[1..];
  }

  /** A sequence is what lies before position `k`, the element at `k`, and what lies after. */
  lemma SplitAt<T>(b: seq<T>, k: int)
    requires 0 <= k < |b|
    ensures b == b[..k] + [b[k]] + b[k + 1..]
  {
    assert b[..k + 1] == b[..k] + [b[k]];
    assert b == b[..k + 1] + b[k + 1..];
  }

  /** Taking one element out of the middle of a sequence takes it out of its multiset. */
  lemma MultisetSplit<T>(lo: seq<T>, x: T, hi: seq<T>)
    ensures multiset(lo + [x] + hi) == multiset(lo + hi) + multiset{x}
  {
    assert multiset(lo + [x] + hi) == multiset(lo) + multiset{x} + multiset(hi);
  }

  /** Removing the same value from two rearrangements of each other leaves rearrangements of each other. */
  lemma RemoveMatching<T>(a: seq<T>, b: seq<T>, k: int)
    requires multiset(a) == multiset(b) && |a| > 0 && 0 <= k < |b| && b[k] == a[0]
    ensures multiset(a[1..]) == multiset(b[..k] + b[k + 1..])
  {
    DropHead(a);
    SplitAt(b, k);
    MultisetSplit(b[..k], b[k], b[k + 1..]);
    assert multiset(b[..k] + b[k + 1..]) == multiset(b) - multiset{b[k]};
  }

  /** Taking one element out of the middle of a sequence takes its image out of the image's multiset. */
  lemma MapRemoved<A, B>(lo: seq<A>, x: A, hi: seq<A>, f: A -> B)
    ensures multiset(Map(lo + [x] + hi, f)) == multiset(Map(lo + hi, f)) + multiset{f(x)}
  {
    MapAppend(lo + [x], hi, f);
    MapAppend(lo, [x], f);
    MapAppend(lo, hi, f);
    MultisetSplit(Map(lo, f), f(x), Map(hi, f));
  }

  /** The image of a non-empty sequence is the head's image followed by the tail's. */
  lemma MapHead<A, B>(a: seq<A>, f: A -> B)
    requires |a| > 0
    ensures multiset(Map(a, f)) == multiset{f(a[0])} + multiset(Map(a[1..], f))
  {
  }

  /** Removing position `k` removes its image once. */
  lemma MapRemovedAt<A, B>(b: seq<A>, k: int, f: A -> B)
    requires 0 <= k < |b|
    ensures multiset(Map(b, f)) == multiset(Map(b[..k] + b[k + 1..], f)) + multiset{f(b[k])}
  {
    SplitAt(b, k);
    MapRemoved(b[..k], b[k], b[k + 1..], f);
  }

  /** Rearranging a sequence rearranges its image: equal multisets map to equal multisets. */
  lemma {:induction false} MapMultiset<A, B>(a: seq<A>, b: seq<A>, f: A -> B)
    requires multiset(a) == multiset(b)
    ensures multiset(Map(a, f)) == multiset(Map(b, f))
    decreases |a|
  {
    if |a| == 0 {
      assert |b| == |multiset(b)| == 0;
    } else {
      var k := IndexOf(b, a[0]);
      RemoveMatching(a, b, k);
      MapMultiset(a[1..], b[..k] + b[k + 1..], f);
      MapHead(a, f);
      MapRemovedAt(b, k, f);
    }
  }

  /** The timestamp column. */
  function Times(evs: seq<Event>): (ts: seq<int>)
    ensures |ts| == |evs|
    ensures forall i :: 0 <= i < |evs| ==> ts[i] == evs[i].timestamp
  {
    Map(evs, (e: Event) => e.timestamp as int)
  }

  predicate SortedInts(ts: seq<int>) {
    forall i, j :: 0 <= i < j < |ts| ==> ts[i] <= ts[j]
  }

  /** The order the final sort establishes: timestamps never decrease. */
  predicate SortedByTime(evs: seq<Event>) {
    forall i, j :: 0 <= i < j < |evs| ==> evs[i].timestamp <= evs[j].timestamp
  }

  /** A bound below every element of `xs` and below `e` is below every element of a rearrangement of both. */
  lemma LowerBoundKept(lo: int, xs: seq<Event>, e: Event, r: seq<Event>)
    requires multiset(r) == multiset(xs) + multiset{e}
    requires lo <= e.timestamp && forall y :: y in xs ==> lo <= y.timestamp
    ensures forall y :: y in r ==> lo <= y.timestamp
  {
    forall y | y in r ensures lo <= y.timestamp {
      assert y in multiset(r);
      if y != e {
        assert y in multiset(xs);
      }
    }
  }

  /** The head of a sorted sequence is no later than anything after it. */
  lemma HeadIsLowerBound(evs: seq<Event>)
    requires SortedByTime(evs) && |evs| > 0
    ensures SortedByTime(evs[1..])
    ensures forall y :: y in evs[1..] ==> evs[0].timestamp <= y.timestamp
  {
    forall y | y in evs[1..] ensures evs[0].timestamp <= y.timestamp {
      var k :| 0 <= k < |evs[1..]| && evs[1..][k] == y;
      assert evs[k + 1] == y;
    }
  }

  /** A first element no later than a sorted remainder gives a sorted sequence. */
  lemma SortedCons(x: Event, s: seq<Event>)
    requires SortedByTime(s) && forall y :: y in s ==> x.timestamp <= y.timestamp
    ensures SortedByTime([x] + s)
  {
    var r := [x] + s;
    forall i, j | 0 <= i < j < |r| ensures r[i].timestamp <= r[j].timestamp {
      assert r[j] == s[j - 1];
      if i > 0 {
        assert r[i] == s[i - 1];
      } else {
        assert s[j - 1] in s;
      }
    }
  }

  /** The first element of a sorted sequence is no larger than any of its values. */
  lemma SortedHeadIsLeast(a: seq<int>, v: int)
    requires SortedInts(a) && v in multiset(a)
    ensures a[0] <= v
  {
    var i := IndexOf(a, v);
    if i > 0 {
      assert 0 <= 0 < i < |a|;
    }
  }

  lemma SortedTail(a: seq<int>)
    requires SortedInts(a) && |a| > 0
    ensures SortedInts(a[1..])
  {
    forall i, j | 0 <= i < j < |a| - 1 ensures a[1..][i] <= a[1..][j] {
      assert a[1..][i] == a[i + 1] && a[1..][j] == a[j + 1];
    }
  }

  /** Two sorted rearrangements of each other start with the same value, and their tails are again such a pair. */
  lemma SortedHeads(a: seq<int>, b: seq<int>)
    requires SortedInts(a) && SortedInts(b) && multiset(a) == multiset(b) && |a| > 0
    ensures |b| > 0 && a[0] == b[0]
    ensures SortedInts(a[1..]) && SortedInts(b[1..]) && multiset(a[1..]) == multiset(b[1..])
  {
    assert |b| > 0 by {
      assert a[0] in multiset(b);
    }
    SortedHeadIsLeast(b, a[0]);
    SortedHeadIsLeast(a, b[0]);
    DropHead(a);
    DropHead(b);
    SortedTail(a);
    SortedTail(b);
  }

  /** Sequences with equal heads and equal tails are equal. */
  lemma ConsEqual(a: seq<int>, b: seq<int>)
    requires |a| > 0 && |b| > 0 && a[0] == b[0] && a[1..] == b[1..]
    ensures a == b
  {
    assert a == [a[0]] + a[1..] && b == [b[0]] + b[1..];
  }

  /** Two sorted sequences of integers holding the same values are equal. */
  lemma {:induction false} SortedIntsUnique(a: seq<int>, b: seq<int>)
    requires SortedInts(a) && SortedInts(b) && multiset(a) == multiset(b)
    ensures a == b
    decreases |a|
  {
    if |a| == 0 {
      assert |b| == |multiset(b)| == 0;
    } else {
      SortedHeads(a, b);
      SortedIntsUnique(a[1..], b[1..]);
      ConsEqual(a, b);
    }
  }

  /* ---------------------------------------------------------------------- */
  /* The sort                                                                */
  /* ---------------------------------------------------------------------- */

  /** Places `e` into a sorted sequence. */
  function Insert(e: Event, evs: seq<Event>): (r: seq<Event>)
    requires SortedByTime(evs)
    ensures SortedByTime(r)
    ensures multiset(r) == multiset(evs) + multiset{e}
    decreases |evs|
  {
    if |evs| == 0 then [e]
    else if e.timestamp <= evs[0].timestamp then [e] + evs
    else
      var rest := Insert(e, evs[1..]);
      DropHead(evs);
      HeadIsLowerBound(evs);
      LowerBoundKept(evs[0].timestamp, evs[1..], e, rest);
      SortedCons(evs[0], rest);
      [evs[0]] + rest
  }

  /**
   `sort.Slice` by timestamp. The Go sort is not stable, so the only promise
   is a non-decreasing permutation; this model fixes one such permutation,
   and `SortedPermutationsAgree` shows what every other one shares with it.
   */
  function SortByTime(evs: seq<Event>): (r: seq<Event>)
    ensures SortedByTime(r)
    ensures multiset(r) == multiset(evs)
    decreases |evs|
  {
    if |evs| == 0 then []
    else
      assert evs == [evs[0]] + evs[1..];
      Insert(evs[0], SortByTime(evs[1..]))
  }

  /**
   Whatever order the unstable sort leaves equal timestamps in, the timestamp
   column of the output is the same: any two sorted rearrangements of the same
   events agree on it.
   */
  lemma SortedPermutationsAgree(a: seq<Event>, b: seq<Event>)
    requires SortedByTime(a) && SortedByTime(b) && multiset(a) == multiset(b)
    ensures Times(a) == Times(b)
  {
    MapMultiset(a, b, (e: Event) => e.timestamp as int);
    assert SortedInts(Times(a)) && SortedInts(Times(b));
    SortedIntsUnique(Times(a), Times(b));
  }

  /* ---------------------------------------------------------------------- */
  /* The timeline                                                            */
  /* ---------------------------------------------------------------------- */

  /** An event with its `UTC` column filled in from its timestamp. */
  function Stamp(e: Event, utc: Int64 -> string): Event {
    e.(utc := utc(e.timestamp))
  }

  function EventOf(e: Emitted): Event {
    e.event
  }

  /** The outcome of a run: the timeline (and the walk error that was only logged), or the fatal read failure. */
  datatype Outcome =
    | Timeline(events: seq<Event>, walkError: Option<string>)
    | Aborted(path: string, failure: ReadFailure)

  /**
   `main`: walk, extract, sort by timestamp, then fill in the formatted time
   of every event. `now` is the current Unix time and `utc` the time formatting.
   */
  function Run(entries: seq<WalkEntry>, now: Int64, utc: Int64 -> string): (o: Outcome)
    ensures o.Aborted? <==> Walk(entries).Fatal?
    ensures o.Timeline? ==> SortedByTime(o.events)
    ensures o.Timeline? ==> forall e :: e in o.events ==> e.utc == utc(e.timestamp)
  {
    match Walk(entries)
    case Fatal(path, failure) => Aborted(path, failure)
    case Walked(snaps, walkError) =>
      var sorted := SortByTime(Map(Extract(snaps, now), EventOf));
      var stamped := Map(sorted, (e: Event) => Stamp(e, utc));
      assert Times(stamped) == Times(sorted);
      Timeline(stamped, walkError)
  }

  /* ---------------------------------------------------------------------- */
  /* Properties of a whole run                                               */
  /* ---------------------------------------------------------------------- */

  /**
   The timeline holds exactly the extracted events, each with its formatted
   time, in non-decreasing timestamp order.
   */
  lemma RunIsSortedPermutation(entries: seq<WalkEntry>, now: Int64, utc: Int64 -> string)
    requires Walk(entries).Walked?
    ensures var o := Run(entries, now, utc);
      && o.Timeline?
      && o.walkError == Walk(entries).walkError
      && SortedByTime(o.events)
      && multiset(o.events) == multiset(Map(Map(Extract(Walk(entries).snapshots, now), EventOf), (e: Event) => Stamp(e, utc)))
  {
    var evs := Map(Extract(Walk(entries).snapshots, now), EventOf);
    MapMultiset(SortByTime(evs), evs, (e: Event) => Stamp(e, utc));
  }

  /**
   The timestamp column of the timeline does not depend on how the sort
   breaks ties: any sorted arrangement of the stamped events has the same one.
   */
  lemma RunTimesAreDetermined(entries: seq<WalkEntry>, now: Int64, utc: Int64 -> string, other: seq<Event>)
    requires Walk(entries).Walked?
    requires SortedByTime(other)
    requires multiset(other) == multiset(Map(Map(Extract(Walk(entries).snapshots, now), EventOf), (e: Event) => Stamp(e, utc)))
    ensures Times(other) == Times(Run(entries, now, utc).events)
  {
    RunIsSortedPermutation(entries, now, utc);
    SortedPermutationsAgree(other, Run(entries, now, utc).events);
  }

  /**
   Every event of the timeline belongs to a row of a retained snapshot:
   its line and name come from that row and snapshot, a poll event carries
   the snapshot's time, and a derived event a field value inside the window.
   */
  lemma RunEventsHaveOrigin(entries: seq<WalkEntry>, now: Int64, utc: Int64 -> string)
    requires Walk(entries).Walked?
    ensures var snaps := Walk(entries).snapshots;
      forall e :: e in Run(entries, now, utc).events ==>
        exists m :: m in Extract(snaps, now) && FromRun(m, snaps, now) && e == Stamp(m.event, utc)
  {
    var snaps := Walk(entries).snapshots;
    var emitted := Extract(snaps, now);
    EveryEventHasOrigin(snaps, now);
    var evs := Map(emitted, EventOf);
    var sorted := SortByTime(evs);
    var stamp := (e: Event) => Stamp(e, utc);
    var out := Map(sorted, stamp);
    assert Run(entries, now, utc).events == out;
    forall e | e in out
      ensures exists m :: m in emitted && FromRun(m, snaps, now) && e == Stamp(m.event, utc)
    {
      var x := MapMember(sorted, stamp, e);
      assert x in evs by {
        assert x in multiset(sorted);
      }
      var m := MapMember(emitted, EventOf, x);
      assert m in emitted && e == Stamp(m.event, utc);
    }
  }

  /** A `.json` file that cannot be loaded aborts the run: no timeline is produced. */
  lemma RunAbortsOnBadFile(path: string, name: string, content: FileContent, rest: seq<WalkEntry>, now: Int64, utc: Int64 -> string)
    requires IsJsonName(name) && ReadFile(content).Failure?
    ensures Run([Visit(path, name, content)] + rest, now, utc) == Aborted(path, ReadFile(content).error)
  {
    WalkFailsOnBadFile(path, name, content, rest);
  }

  /** A walk error does not abort the run: the timeline is built from what was read before it. */
  lemma RunSurvivesWalkError(before: seq<WalkEntry>, error: string, after: seq<WalkEntry>, now: Int64, utc: Int64 -> string)
    requires Walk(before).Walked? && Walk(before).walkError.None?
    ensures var o := Run(before + [WalkError(error)] + after, now, utc);
      && o.Timeline?
      && o.walkError == Some(error)
      && o.events == Run(before, now, utc).events
  {
    var snaps := Walk(before).snapshots;
    assert Walk(before + [WalkError(error)] + after) == Walked(snaps, Some(error)) by {
      var rest := [WalkError(error)] + after;
      assert before + [WalkError(error)] + after == before + rest;
      WalkStopsAtError(error, after);
      WalkAppend(before, rest);
      assert snaps + [] == snaps;
    }
  }
}

=== FILE: decimal.dfy ===
/**
 Decimal integers as Go writes and reads them: `fmt`'s `%d` rendering and
 `strconv.ParseInt(s, 10, 64)`, the parser the timeline uses to recognise
 field values that look like Unix timestamps.
 */
module Decimal {
  import opened Wrappers

  const MinInt64: int := -0x8000_0000_0000_0000
  const MaxInt64: int := 0x7fff_ffff_ffff_ffff

  /** Go's `int64` (and `int` on 64-bit platforms). */
  type Int64 = i: int | MinInt64 <= i <= MaxInt64

  predicate IsDigit(c: char) {
    '0' <= c <= '9'
  }

  predicate AllDigits(s: string) {
    forall i :: 0 <= i < |s| ==> IsDigit(s[i])
  }

  function DigitValue(c: char): (d: nat)
    requires IsDigit(c)
    ensures d < 10
  {
    (c as int) - ('0' as int)
  }

  function DigitChar(d: nat): (c: char)
    requires d < 10
    ensures IsDigit(c) && DigitValue(c) == d
  {
    (('0' as int) + d) as char
  }

  /** The value of a string of decimal digits, most significant first. */
  function DigitsValue(s: string): nat
    requires AllDigits(s)
    decreases |s|
  {
    if |s| == 0 then 0 else DigitsValue(s[..|s| - 1]) * 10 + DigitValue(s[|s| - 1])
  }

  /** The shortest decimal rendering of a natural number (no sign, no leading zeros). */
  function FormatNat(n: nat): (s: string)
    ensures |s| > 0 && AllDigits(s)
    ensures s[0] != '0' || n == 0
    decreases n
  {
    if n < 10 then [DigitChar(n)] else FormatNat(n / 10) + [DigitChar(n % 10)]
  }

  /** Go's `%d` rendering of an integer: a minus sign for negative values, then the digits. */
  function FormatInt(i: int): string {
    if i < 0 then "-" + FormatNat(-i) else FormatNat(i)
  }

  /** The digits part of a candidate integer: the text after one optional `+` or `-`. */
  function Unsigned(s: string): string {
    if |s| > 0 && (s[0] == '+' || s[0] == '-') then s[1..] else s
  }

  /** `s` is an optional sign followed by one or more decimal digits. */
  predicate IsDecimal(s: string) {
    |Unsigned(s)| > 0 && AllDigits(Unsigned(s))
  }

  /** The integer a decimal string denotes, leading zeros and a `+` allowed, of any size. */
  function SignedValue(s: string): int
    requires IsDecimal(s)
  {
    if s[0] == '-' then -(DigitsValue(Unsigned(s)) as int) else DigitsValue(Unsigned(s))
  }

  /**
   `strconv.ParseInt(s, 10, 64)` with the error reduced to `None`: an optional
   sign, then one or more decimal digits and nothing else (no spaces, no
   underscores, no base prefix), denoting a value inside the `int64` range.
   */
  function ParseInt64(s: string): (r: Option<Int64>)
    ensures r.Some? <==> IsDecimal(s) && MinInt64 <= SignedValue(s) <= MaxInt64
    ensures r.Some? ==> r.value == SignedValue(s)
    ensures r.Some? ==> (r.value < 0 ==> s[0] == '-')
  {
    var body := Unsigned(s);
    if |body| == 0 || !AllDigits(body) then None
    else
      var magnitude: int := DigitsValue(body);
      var v: int := if s[0] == '-' then -magnitude else magnitude;
      if MinInt64 <= v <= MaxInt64 then Some(v) else None
  }

  /** Reading back a rendered natural number gives the number. */
  lemma {:induction false} DigitsValueOfFormat(n: nat)
    ensures DigitsValue(FormatNat(n)) == n
    decreases n
  {
    if n >= 10 {
      var s := FormatNat(n);
      assert s[..|s| - 1] == FormatNat(n / 10);
      DigitsValueOfFormat(n / 10);
    }
  }

  /** `ParseInt64` accepts exactly what `%d` prints for every `int64`. */
  lemma ParseFormatRoundTrip(v: Int64)
    ensures ParseInt64(FormatInt(v)) == Some(v)
  {
    if v < 0 {
      var m: nat := -(v as int);
      var s := "-" + FormatNat(m);
      assert FormatInt(v) == s;
      assert Unsigned(s) == FormatNat(m);
      DigitsValueOfFormat(m);
      assert DigitsValue(Unsigned(s)) == m;
    } else {
      var m: nat := v as int;
      var s := FormatNat(m);
      assert FormatInt(v) == s;
      assert s[0] != '+' && s[0] != '-';
      assert Unsigned(s) == s;
      DigitsValueOfFormat(m);
    }
  }

  /** An explicit plus sign is accepted as well. */
  lemma ParsePlusSigned(n: nat)
    requires n <= MaxInt64
    ensures ParseInt64("+" + FormatNat(n)) == Some(n)
  {
    DigitsValueOfFormat(n);
    assert Unsigned("+" + FormatNat(n)) == FormatNat(n);
  }

  /** One past the largest `int64` is rejected (Go reports a range error). */
  lemma ParseRejectsOverflow()
    ensures ParseInt64(FormatNat(MaxInt64 + 1)) == None
  {
    DigitsValueOfFormat(MaxInt64 + 1);
  }

  /** A lone sign, or a sign followed by a non-digit, is not a number. */
  lemma ParseRejectsBareSign(s: string)
    requires |s| > 0 && (s[0] == '+' || s[0] == '-')
    requires |s| == 1 || !IsDigit(s[1])
    ensures ParseInt64(s) == None
  {
  }

  /** A leading zero does not change the value of a digit string. */
  lemma {:induction false} DigitsValueLeadingZero(s: string)
    requires AllDigits(s)
    ensures AllDigits("0" + s) && DigitsValue("0" + s) == DigitsValue(s)
    decreases |s|
  {
    var z := "0" + s;
    if |s| > 0 {
      assert z[..|z| - 1] == "0" + s[..|s| - 1];
      assert z[|z| - 1] == s[|s| - 1];
      DigitsValueLeadingZero(s[..|s| - 1]);
    }
  }

  /** Leading zeros are accepted, as `strconv.ParseInt` accepts them: `"01"` reads as 1. */
  lemma ParseAcceptsLeadingZero(n: nat)
    requires n <= MaxInt64
    ensures ParseInt64("0" + FormatNat(n)) == Some(n)
  {
    var s := "0" + FormatNat(n);
    DigitsValueLeadingZero(FormatNat(n));
    DigitsValueOfFormat(n);
    assert Unsigned(s) == s;
  }

  /** A minus sign before zero is accepted and denotes zero. */
  lemma ParseNegativeZero()
    ensures ParseInt64("-0") == Some(0)
  {
    assert Unsigned("-0") == "0";
    assert DigitsValue("0") == 0 by {
      assert "0"[..0] == "";
    }
  }
}

=== FILE: extraction.dfy ===
/**
 Event extraction (cmd/kolide-timeline/main.go, the loop over retained
 snapshots): derived events for field values that look like recent Unix
 timestamps, and one poll event per row whose line has not been polled
 before in the run, except for snapshots whose display name mentions "events".
 */
module Extraction {
  import opened Wrappers
  import opened Strings
  import opened Decimal
  import opened Snapshots

  /** Field values must be strictly later than this instant to count as timestamps. */
  const ReferenceEpoch: int := 1620836044

  /** Snapshots whose display name contains this get no poll events. */
  const EventsMarker: string := "events"

  /** The relation of a poll event. */
  const PollRelation: string := "poll"

  /** One timeline record. `utc` stays empty until the timeline is assembled. */
  datatype Event = Event(timestamp: Int64, utc: string, name: string, relation: string, line: string)

  /**
   Which rule produced an event. The CSV does not carry it, and cannot: a row
   with a key named "poll" yields derived events whose relation is "poll" as well.
   */
  datatype Kind = Derived | Poll

  datatype Emitted = Emitted(kind: Kind, event: Event)

  /** The timestamp window, open on both sides. */
  predicate InWindow(t: int, now: int) {
    ReferenceEpoch < t < now
  }

  /** The derived event a single field yields, if its value parses as an `int64` inside the window. */
  predicate DerivedBy(e: Event, f: Field, name: string, line: string, now: Int64) {
    && ParseInt64(f.value) == Some(e.timestamp)
    && InWindow(e.timestamp, now)
    && e == Event(e.timestamp, "", name, f.key, line)
  }

  /** The derived event of one field: present when its value parses as an `int64` strictly inside the window. */
  function FieldEvent(f: Field, name: string, line: string, now: Int64): (evs: seq<Event>)
    ensures |evs| <= 1
  {
    match ParseInt64(f.value)
    case Some(t) => if ReferenceEpoch < t && t < now then [Event(t, "", name, f.key, line)] else []
    case None => []
  }

  /** The derived events of one row, one per qualifying field, in visiting order. */
  function DerivedEvents(fields: seq<Field>, name: string, line: string, now: Int64): (evs: seq<Event>)
    ensures |evs| <= |fields|
    ensures forall e :: e in evs ==> e.name == name && e.line == line && e.utc == "" && InWindow(e.timestamp, now)
    decreases |fields|
  {
    if |fields| == 0 then []
    else FieldEvent(fields[0], name, line, now) + DerivedEvents(fields[1..], name, line, now)
  }

  function AsDerived(evs: seq<Event>): (out: seq<Emitted>)
    ensures |out| == |evs|
    ensures forall i :: 0 <= i < |evs| ==> out[i] == Emitted(Derived, evs[i])
  {
    if |evs| == 0 then [] else [Emitted(Derived, evs[0])] + AsDerived(evs[1..])
  }

  /** The run state threaded through the loop: the events so far and the `polled` set. */
  datatype Progress = Progress(emitted: seq<Emitted>, polled: set<string>)

  /** The loop body for one added row of a snapshot with display name `name` taken at `pollTime`. */
  function ExtractRow(p: Progress, name: string, pollTime: Int64, r: Row, now: Int64): (q: Progress)
    ensures p.emitted <= q.emitted
    ensures p.polled <= q.polled <= p.polled + {RowString(r)}
  {
    var line := RowString(r);
    Step(p, name, pollTime, line, DerivedEvents(r, name, line, now))
  }

  /**
   The loop body once the row's line and derived events are known: the
   derived events are always emitted; the poll event is skipped for a line
   already polled, and for a name mentioning "events" without marking the line.
   */
  function Step(p: Progress, name: string, pollTime: Int64, line: string, derived: seq<Event>): (q: Progress)
    ensures p.emitted + AsDerived(derived) <= q.emitted
    ensures |q.emitted| <= |p.emitted| + |derived| + 1
    ensures Deriveds(q.emitted) == Deriveds(p.emitted) + derived
    ensures Polls(q.emitted) == Polls(p.emitted) + NewPolls(p.polled, name, pollTime, line)
    ensures line in q.polled <==> line in p.polled || !Contains(name, EventsMarker)
    ensures q.polled - {line} == p.polled - {line}
  {
    var d := AsDerived(derived);
    AsDerivedViews(derived);
    PollsAppend(p.emitted, d);
    DerivedsAppend(p.emitted, d);
    var emitted := p.emitted + d;
    if line in p.polled then Progress(emitted, p.polled)
    else if Contains(name, EventsMarker) then Progress(emitted, p.polled)
    else
      var poll := Emitted(Poll, Event(pollTime, "", name, PollRelation, line));
      PollsAppend(emitted, [poll]);
      DerivedsAppend(emitted, [poll]);
      assert Polls([poll]) == [poll.event] && Deriveds([poll]) == [];
      Progress(emitted + [poll], p.polled + {line})
  }

  function ExtractRows(p: Progress, name: string, pollTime: Int64, rows: seq<Row>, now: Int64): (q: Progress)
    ensures p.emitted <= q.emitted && p.polled <= q.polled
    decreases |rows|
  {
    if |rows| == 0 then p else ExtractRows(ExtractRow(p, name, pollTime, rows[0], now), name, pollTime, rows[1..], now)
  }

  function ExtractSnapshot(p: Progress, s: Snapshot, now: Int64): Progress {
    ExtractRows(p, DisplayName(s.name), s.unixTime, s.Added(), now)
  }

  function ExtractAll(p: Progress, snaps: seq<Snapshot>, now: Int64): (q: Progress)
    ensures p.emitted <= q.emitted && p.polled <= q.polled
    decreases |snaps|
  {
    if |snaps| == 0 then p else ExtractAll(ExtractSnapshot(p, snaps[0], now), snaps[1..], now)
  }

  /**
   The events of a whole run, starting from an empty `polled` set. Its
   derived events are those of every row of every retained snapshot, in
   order, as if `polled` did not exist.
   */
  function Extract(snaps: seq<Snapshot>, now: Int64): (evs: seq<Emitted>)
    ensures Deriveds(evs) == AllDerived(snaps, now)
  {
    ExtractAllDerived(Progress([], {}), snaps, now);
    ExtractAll(Progress([], {}), snaps, now).emitted
  }

  /* ---------------------------------------------------------------------- */
  /* Views of the emitted events                                             */
  /* ---------------------------------------------------------------------- */

  /** The poll events, in emission order. */
  function Polls(evs: seq<Emitted>): (ps: seq<Event>)
    ensures |ps| <= |evs|
  {
    if |evs| == 0 then []
    else (if evs[0].kind == Poll then [evs[0].event] else []) + Polls(evs[1..])
  }

  /** The derived events, in emission order. */
  function Deriveds(evs: seq<Emitted>): (ds: seq<Event>)
    ensures |ds| <= |evs|
  {
    if |evs| == 0 then []
    else (if evs[0].kind == Derived then [evs[0].event] else []) + Deriveds(evs[1..])
  }

  /** The lines of a sequence of events. */
  function Lines(evs: seq<Event>): (ls: set<string>)
    ensures forall e :: e in evs ==> e.line in ls
    decreases |evs|
  {
    if |evs| == 0 then {} else {evs[0].line} + Lines(evs[1..])
  }

  /** No two events share a line. */
  predicate DistinctLines(evs: seq<Event>) {
    forall i, j :: 0 <= i < j < |evs| ==> evs[i].line != evs[j].line
  }

  /** What the loop keeps true: `polled` is exactly the set of polled lines, each polled once, never for "events" snapshots. */
  predicate Consistent(p: Progress) {
    && p.polled == Lines(Polls(p.emitted))
    && DistinctLines(Polls(p.emitted))
    && forall e :: e in Polls(p.emitted) ==> !Contains(e.name, EventsMarker) && e.relation == PollRelation
  }

  /* ---------------------------------------------------------------------- */
  /* Reference definitions                                                   */
  /* ---------------------------------------------------------------------- */

  /** The lines of a sequence of rows. */
  function RowLines(rows: seq<Row>): (ls: set<string>)
    ensures forall r :: r in rows ==> RowString(r) in ls
    decreases |rows|
  {
    if |rows| == 0 then {} else {RowString(rows[0])} + RowLines(rows[1..])
  }

  /** The lines one snapshot makes eligible for a poll event. */
  function PollableLinesOf(s: Snapshot): set<string> {
    if Contains(DisplayName(s.name), EventsMarker) then {} else RowLines(s.Added())
  }

  /** The lines a sequence of snapshots makes eligible for a poll event. */
  function PollableLines(snaps: seq<Snapshot>): set<string>
    decreases |snaps|
  {
    if |snaps| == 0 then {} else PollableLinesOf(snaps[0]) + PollableLines(snaps[1..])
  }

  /** Every derived event of a list of rows, computed row by row without any `polled` state. */
  function RowsDerived(rows: seq<Row>, name: string, now: Int64): seq<Event>
    decreases |rows|
  {
    if |rows| == 0 then [] else DerivedEvents(rows[0], name, RowString(rows[0]), now) + RowsDerived(rows[1..], name, now)
  }

  /** Every derived event of a list of snapshots, computed without any `polled` state. */
  function AllDerived(snaps: seq<Snapshot>, now: Int64): seq<Event>
    decreases |snaps|
  {
    if |snaps| == 0 then []
    else RowsDerived(snaps[0].Added(), DisplayName(snaps[0].name), now) + AllDerived(snaps[1..], now)
  }

  /* ---------------------------------------------------------------------- */
  /* Derived events of one row                                               */
  /* ---------------------------------------------------------------------- */

  /** A field yields an event exactly when that event is derived by the field. */
  lemma FieldEventIff(f: Field, name: string, line: string, now: Int64, e: Event)
    ensures e in FieldEvent(f, name, line, now) <==> DerivedBy(e, f, name, line, now)
  {
  }

  /**
   A row yields a derived event exactly for each field whose value parses as
   an `int64` strictly inside the window, carrying the field's key as relation.
   */
  lemma {:induction false} DerivedEventsIff(fields: seq<Field>, name: string, line: string, now: Int64, e: Event)
    ensures e in DerivedEvents(fields, name, line, now) <==> exists f :: f in fields && DerivedBy(e, f, name, line, now)
    decreases |fields|
  {
    if |fields| > 0 {
      var f0 := fields[0];
      DerivedEventsIff(fields[1..], name, line, now, e);
      FieldEventIff(f0, name, line, now, e);
      assert forall f :: f in fields <==> f == f0 || f in fields[1..] by {
        assert fields == [f0] + fields[1..];
      }
    }
  }

  /** A value at or below the reference epoch, at or after `now`, or not an integer, yields nothing. */
  lemma NoDerivedOutsideWindow(f: Field, name: string, line: string, now: Int64)
    requires ParseInt64(f.value).None? || !InWindow(ParseInt64(f.value).value, now)
    ensures DerivedEvents([f], name, line, now) == []
  {
  }

  /* ---------------------------------------------------------------------- */
  /* Filters over concatenations                                             */
  /* ---------------------------------------------------------------------- */

  lemma {:induction false} PollsAppend(a: seq<Emitted>, b: seq<Emitted>)
    ensures Polls(a + b) == Polls(a) + Polls(b)
    decreases |a|
  {
    if |a| > 0 {
      assert (a + b)[1..] == a[1..] + b;
      PollsAppend(a[1..], b);
    } else {
      assert a + b == b;
    }
  }

  lemma {:induction false} DerivedsAppend(a: seq<Emitted>, b: seq<Emitted>)
    ensures Deriveds(a + b) == Deriveds(a) + Deriveds(b)
    decreases |a|
  {
    if |a| > 0 {
      assert (a + b)[1..] == a[1..] + b;
      DerivedsAppend(a[1..], b);
    } else {
      assert a + b == b;
    }
  }

  lemma {:induction false} AsDerivedViews(evs: seq<Event>)
    ensures Polls(AsDerived(evs)) == []
    ensures Deriveds(AsDerived(evs)) == evs
    decreases |evs|
  {
    if |evs| > 0 {
      AsDerivedViews(evs[1..]);
      assert AsDerived(evs)[1..] == AsDerived(evs[1..]);
    }
  }

  /** Whether a row with this line gets a poll event, given the lines polled so far. */
  predicate PollDue(polled: set<string>, name: string, line: string) {
    line !in polled && !Contains(name, EventsMarker)
  }

  /** The poll events one row step adds: none, or the one for its line. */
  function NewPolls(polled: set<string>, name: string, pollTime: Int64, line: string): seq<Event> {
    if PollDue(polled, name, line) then [Event(pollTime, "", name, PollRelation, line)] else []
  }

  /** One step appends at most one poll event, and records its line exactly when it does. */
  lemma StepPolls(p: Progress, name: string, pollTime: Int64, line: string, derived: seq<Event>)
    ensures var q := Step(p, name, pollTime, line, derived);
      var polls := NewPolls(p.polled, name, pollTime, line);
      && Polls(q.emitted) == Polls(p.emitted) + polls
      && q.polled == p.polled + Lines(polls)
  {
    var polls := NewPolls(p.polled, name, pollTime, line);
    if PollDue(p.polled, name, line) {
      assert Lines(polls) == {line};
    }
  }

  /** One row step appends the row's derived events to the derived view. */
  lemma ExtractRowDeriveds(p: Progress, name: string, pollTime: Int64, r: Row, now: Int64)
    ensures Deriveds(ExtractRow(p, name, pollTime, r, now).emitted)
         == Deriveds(p.emitted) + DerivedEvents(r, name, RowString(r), now)
  {
  }

  /** One row step appends at most one poll event, and records its line exactly when it does. */
  lemma ExtractRowPolls(p: Progress, name: string, pollTime: Int64, r: Row, now: Int64)
    ensures var q := ExtractRow(p, name, pollTime, r, now);
      var polls := NewPolls(p.polled, name, pollTime, RowString(r));
      && Polls(q.emitted) == Polls(p.emitted) + polls
      && q.polled == p.polled + Lines(polls)
  {
    var line := RowString(r);
    StepPolls(p, name, pollTime, line, DerivedEvents(r, name, line, now));
  }

  /* ---------------------------------------------------------------------- */
  /* The loop invariant                                                      */
  /* ---------------------------------------------------------------------- */

  lemma {:induction false} LinesAppend(a: seq<Event>, b: seq<Event>)
    ensures Lines(a + b) == Lines(a) + Lines(b)
    decreases |a|
  {
    if |a| > 0 {
      assert (a + b)[1..] == a[1..] + b;
      LinesAppend(a[1..], b);
    } else {
      assert a + b == b;
    }
  }

  /** Appending the poll event of a line not yet polled keeps the lines distinct and records the line. */
  lemma AppendNewPoll(ps: seq<Event>, np: seq<Event>, polled: set<string>)
    requires polled == Lines(ps) && DistinctLines(ps)
    requires np == [] || (|np| == 1 && np[0].line !in polled)
    ensures DistinctLines(ps + np)
    ensures Lines(ps + np) == polled + Lines(np)
  {
    LinesAppend(ps, np);
    if np == [] {
      assert ps + np == ps;
    } else {
      forall i, j | 0 <= i < j < |ps + np| ensures (ps + np)[i].line != (ps + np)[j].line {
        if j == |ps| {
          assert ps[i] in ps;
        }
      }
    }
  }

  /** One step keeps the loop invariant. */
  lemma StepConsistent(p: Progress, name: string, pollTime: Int64, line: string, derived: seq<Event>)
    requires Consistent(p)
    ensures Consistent(Step(p, name, pollTime, line, derived))
  {
    var q := Step(p, name, pollTime, line, derived);
    var ps := Polls(p.emitted);
    var np := NewPolls(p.polled, name, pollTime, line);
    assert Polls(q.emitted) == ps + np && q.polled == p.polled + Lines(np) by {
      StepPolls(p, name, pollTime, line, derived);
    }
    AppendNewPoll(ps, np, p.polled);
    forall e: Event | e in ps + np ensures !Contains(e.name, EventsMarker) && e.relation == PollRelation {
      if e !in ps {
        assert e in np;
      }
    }
  }

  /** One step records its line in `polled` unless the name mentions "events" (a line already there stays there). */
  lemma StepPolled(p: Progress, name: string, pollTime: Int64, line: string, derived: seq<Event>)
    ensures Step(p, name, pollTime, line, derived).polled
         == p.polled + (if Contains(name, EventsMarker) then {} else {line})
  {
  }

  /** One row step keeps the loop invariant. */
  lemma ExtractRowConsistent(p: Progress, name: string, pollTime: Int64, r: Row, now: Int64)
    requires Consistent(p)
    ensures Consistent(ExtractRow(p, name, pollTime, r, now))
  {
    var line := RowString(r);
    StepConsistent(p, name, pollTime, line, DerivedEvents(r, name, line, now));
  }

  lemma {:induction false} ExtractRowsConsistent(p: Progress, name: string, pollTime: Int64, rows: seq<Row>, now: Int64)
    requires Consistent(p)
    ensures Consistent(ExtractRows(p, name, pollTime, rows, now))
    decreases |rows|
  {
    if |rows| > 0 {
      ExtractRowConsistent(p, name, pollTime, rows[0], now);
      ExtractRowsConsistent(ExtractRow(p, name, pollTime, rows[0], now), name, pollTime, rows[1..], now);
    }
  }

  lemma {:induction false} ExtractAllConsistent(p: Progress, snaps: seq<Snapshot>, now: Int64)
    requires Consistent(p)
    ensures Consistent(ExtractAll(p, snaps, now))
    decreases |snaps|
  {
    if |snaps| > 0 {
      var s := snaps[0];
      ExtractRowsConsistent(p, DisplayName(s.name), s.unixTime, s.Added(), now);
      ExtractAllConsistent(ExtractSnapshot(p, s, now), snaps[1..], now);
    }
  }

  /* ---------------------------------------------------------------------- */
  /* What a whole run polls and derives                                      */
  /* ---------------------------------------------------------------------- */

  lemma SetUnionAssoc<T>(a: set<T>, b: set<T>, c: set<T>)
    ensures (a + b) + c == a + (b + c)
  {
  }

  /** The rows of one snapshot add exactly their lines to `polled`, unless the name mentions "events". */
  lemma {:induction false} ExtractRowsPolled(p: Progress, name: string, pollTime: Int64, rows: seq<Row>, now: Int64)
    ensures ExtractRows(p, name, pollTime, rows, now).polled
         == p.polled + (if Contains(name, EventsMarker) then {} else RowLines(rows))
    decreases |rows|
  {
    if |rows| > 0 {
      var line := RowString(rows[0]);
      var q := ExtractRow(p, name, pollTime, rows[0], now);
      var skip := Contains(name, EventsMarker);
      var rest := RowLines(rows[1..]);
      assert q.polled == p.polled + (if skip then {} else {line}) by {
        StepPolled(p, name, pollTime, line, DerivedEvents(rows[0], name, line, now));
      }
      assert ExtractRows(q, name, pollTime, rows[1..], now).polled == q.polled + (if skip then {} else rest) by {
        ExtractRowsPolled(q, name, pollTime, rows[1..], now);
      }
      assert ExtractRows(p, name, pollTime, rows, now) == ExtractRows(q, name, pollTime, rows[1..], now);
      assert RowLines(rows) == {line} + rest;
      if !skip {
        SetUnionAssoc(p.polled, {line}, rest);
      }
    }
  }

  lemma {:induction false} ExtractAllPolled(p: Progress, snaps: seq<Snapshot>, now: Int64)
    ensures ExtractAll(p, snaps, now).polled == p.polled + PollableLines(snaps)
    decreases |snaps|
  {
    if |snaps| > 0 {
      var s := snaps[0];
      ExtractRowsPolled(p, DisplayName(s.name), s.unixTime, s.Added(), now);
      ExtractAllPolled(ExtractSnapshot(p, s, now), snaps[1..], now);
    }
  }

  /** Derived events accumulate row by row, untouched by the `polled` set. */
  lemma {:induction false} ExtractRowsDerived(p: Progress, name: string, pollTime: Int64, rows: seq<Row>, now: Int64)
    ensures Deriveds(ExtractRows(p, name, pollTime, rows, now).emitted) == Deriveds(p.emitted) + RowsDerived(rows, name, now)
    decreases |rows|
  {
    if |rows| > 0 {
      var q := ExtractRow(p, name, pollTime, rows[0], now);
      var d0 := DerivedEvents(rows[0], name, RowString(rows[0]), now);
      assert Deriveds(q.emitted) == Deriveds(p.emitted) + d0 by {
        ExtractRowDeriveds(p, name, pollTime, rows[0], now);
      }
      assert Deriveds(ExtractRows(q, name, pollTime, rows[1..], now).emitted)
          == Deriveds(q.emitted) + RowsDerived(rows[1..], name, now) by {
        ExtractRowsDerived(q, name, pollTime, rows[1..], now);
      }
      assert ExtractRows(p, name, pollTime, rows, now) == ExtractRows(q, name, pollTime, rows[1..], now);
      assert RowsDerived(rows, name, now) == d0 + RowsDerived(rows[1..], name, now);
      var a := Deriveds(p.emitted);
      var r1 := RowsDerived(rows[1..], name, now);
      AppendAssoc(a, d0, r1);
    }
  }

  lemma {:induction false} ExtractAllDerived(p: Progress, snaps: seq<Snapshot>, now: Int64)
    ensures Deriveds(ExtractAll(p, snaps, now).emitted) == Deriveds(p.emitted) + AllDerived(snaps, now)
    decreases |snaps|
  {
    if |snaps| > 0 {
      var s := snaps[0];
      ExtractRowsDerived(p, DisplayName(s.name), s.unixTime, s.Added(), now);
      ExtractAllDerived(ExtractSnapshot(p, s, now), snaps[1..], now);
    }
  }

  /* ---------------------------------------------------------------------- */
  /* Where every event comes from                                            */
  /* ---------------------------------------------------------------------- */

  /** What one row may yield: its poll event, or a derived event of one of its fields. */
  predicate RowYields(e: Emitted, name: string, pollTime: Int64, r: Row, now: Int64) {
    var line := RowString(r);
    match e.kind
    case Poll => e.event == Event(pollTime, "", name, PollRelation, line)
    case Derived => exists f :: f in r && DerivedBy(e.event, f, name, line, now)
  }

  /** Some row of a snapshot's added rows yields the event. */
  predicate FromRows(e: Emitted, name: string, pollTime: Int64, rows: seq<Row>, now: Int64) {
    exists r :: r in rows && RowYields(e, name, pollTime, r, now)
  }

  /** Some row of some retained snapshot yields the event, under the snapshot's display name and time. */
  predicate FromRun(e: Emitted, snaps: seq<Snapshot>, now: Int64) {
    exists s :: s in snaps && FromRows(e, DisplayName(s.name), s.unixTime, s.Added(), now)
  }

  /** A step emits nothing but the given derived events and the row's own poll event. */
  lemma StepEmits(p: Progress, name: string, pollTime: Int64, line: string, derived: seq<Event>, e: Emitted)
    requires e in Step(p, name, pollTime, line, derived).emitted
    ensures || e in p.emitted
            || (e.kind == Derived && e.event in derived)
            || e == Emitted(Poll, Event(pollTime, "", name, PollRelation, line))
  {
    var d := AsDerived(derived);
    if e in d {
      var i :| 0 <= i < |d| && d[i] == e;
      assert e.event == derived[i];
    }
  }

  /** A row step emits nothing that the row does not yield. */
  lemma ExtractRowEmits(p: Progress, name: string, pollTime: Int64, r: Row, now: Int64, e: Emitted)
    requires e in ExtractRow(p, name, pollTime, r, now).emitted
    ensures e in p.emitted || RowYields(e, name, pollTime, r, now)
  {
    var line := RowString(r);
    StepEmits(p, name, pollTime, line, DerivedEvents(r, name, line, now), e);
    if e !in p.emitted && e.kind == Derived {
      DerivedEventsIff(r, name, line, now, e.event);
    }
  }

  lemma {:induction false} ExtractRowsEmits(p: Progress, name: string, pollTime: Int64, rows: seq<Row>, now: Int64)
    ensures forall e :: e in ExtractRows(p, name, pollTime, rows, now).emitted ==>
      e in p.emitted || FromRows(e, name, pollTime, rows, now)
    decreases |rows|
  {
    if |rows| > 0 {
      var q := ExtractRow(p, name, pollTime, rows[0], now);
      ExtractRowsEmits(q, name, pollTime, rows[1..], now);
      assert ExtractRows(p, name, pollTime, rows, now) == ExtractRows(q, name, pollTime, rows[1..], now);
      forall e | e in ExtractRows(p, name, pollTime, rows, now).emitted
        ensures e in p.emitted || FromRows(e, name, pollTime, rows, now)
      {
        if e in q.emitted {
          ExtractRowEmits(p, name, pollTime, rows[0], now, e);
          assert rows[0] in rows;
        } else {
          var r :| r in rows[1..] && RowYields(e, name, pollTime, r, now);
          assert r in rows;
        }
      }
    }
  }

  lemma {:induction false} ExtractAllEmits(p: Progress, snaps: seq<Snapshot>, now: Int64)
    ensures forall e :: e in ExtractAll(p, snaps, now).emitted ==> e in p.emitted || FromRun(e, snaps, now)
    decreases |snaps|
  {
    if |snaps| > 0 {
      var s := snaps[0];
      var q := ExtractSnapshot(p, s, now);
      ExtractRowsEmits(p, DisplayName(s.name), s.unixTime, s.Added(), now);
      ExtractAllEmits(q, snaps[1..], now);
      forall e | e in ExtractAll(p, snaps, now).emitted ensures e in p.emitted || FromRun(e, snaps, now) {
        if e in q.emitted {
          assert s in snaps;
        } else {
          var s' :| s' in snaps[1..] && FromRows(e, DisplayName(s'.name), s'.unixTime, s'.Added(), now);
          assert s' in snaps;
        }
      }
    }
  }

  /* ---------------------------------------------------------------------- */
  /* Run-wide theorems                                                       */
  /* ---------------------------------------------------------------------- */

  /**
   Deduplication over the whole run: a line gets a poll event exactly when
   some retained snapshot whose display name lacks "events" has a row with that
   line, and it gets only one, however many snapshots repeat it.
   */
  lemma OnePollPerLine(snaps: seq<Snapshot>, now: Int64)
    ensures var ps := Polls(Extract(snaps, now));
      && DistinctLines(ps)
      && Lines(ps) == PollableLines(snaps)
  {
    var p0 := Progress([], {});
    assert Polls([]) == [];
    assert Lines([]) == {};
    ExtractAllConsistent(p0, snaps, now);
    ExtractAllPolled(p0, snaps, now);
  }

  /** Every poll event of the run comes from a snapshot whose display name lacks "events" and has the poll relation. */
  lemma PollEventsAreMarked(snaps: seq<Snapshot>, now: Int64)
    ensures forall e :: e in Polls(Extract(snaps, now)) ==> !Contains(e.name, EventsMarker) && e.relation == PollRelation
  {
    var p0 := Progress([], {});
    assert Polls([]) == [];
    assert Lines([]) == {};
    ExtractAllConsistent(p0, snaps, now);
  }

  /**
   Every event of the run belongs to a row of a retained snapshot: its line is
   that row's line and its name the snapshot's display name; a poll event carries
   the snapshot's time, a derived event the in-window value of one of the row's fields.
   */
  lemma EveryEventHasOrigin(snaps: seq<Snapshot>, now: Int64)
    ensures forall e :: e in Extract(snaps, now) ==> FromRun(e, snaps, now)
  {
    ExtractAllEmits(Progress([], {}), snaps, now);
  }

  /** A single row takes one step. */
  lemma ExtractOneRow(p: Progress, name: string, pollTime: Int64, r: Row, now: Int64)
    ensures ExtractRows(p, name, pollTime, [r], now) == ExtractRow(p, name, pollTime, r, now)
  {
    assert [r][1..] == [];
  }

  /** A snapshot with a single added row takes one step. */
  lemma SingleRowSnapshot(p: Progress, s: Snapshot, r: Row, now: Int64)
    requires s.Added() == [r]
    ensures var name, line := DisplayName(s.name), RowString(r);
      ExtractSnapshot(p, s, now) == Step(p, name, s.unixTime, line, DerivedEvents(r, name, line, now))
  {
    ExtractOneRow(p, DisplayName(s.name), s.unixTime, r, now);
  }

  /** Two steps over the same line from the start: the second one adds only its derived events. */
  lemma StepTwice(n1: string, t1: Int64, n2: string, t2: Int64, line: string, d1: seq<Event>, d2: seq<Event>)
    requires !Contains(n1, EventsMarker)
    ensures Step(Step(Progress([], {}), n1, t1, line, d1), n2, t2, line, d2).emitted
         == AsDerived(d1) + [Emitted(Poll, Event(t1, "", n1, PollRelation, line))] + AsDerived(d2)
  {
    var p1 := Step(Progress([], {}), n1, t1, line, d1);
    assert p1.emitted == AsDerived(d1) + [Emitted(Poll, Event(t1, "", n1, PollRelation, line))] by {
      assert [] + AsDerived(d1) == AsDerived(d1);
    }
    assert line in p1.polled;
  }

  /** Two snapshots processed from the start. */
  lemma ExtractTwo(s1: Snapshot, s2: Snapshot, now: Int64)
    ensures Extract([s1, s2], now) == ExtractSnapshot(ExtractSnapshot(Progress([], {}), s1, now), s2, now).emitted
  {
    var p0 := Progress([], {});
    var p1 := ExtractSnapshot(p0, s1, now);
    var p2 := ExtractSnapshot(p1, s2, now);
    assert [s1, s2][1..] == [s2];
    assert [s2][1..] == [];
    assert ExtractAll(p2, [], now) == p2;
    assert ExtractAll(p1, [s2], now) == ExtractAll(p2, [], now);
    assert ExtractAll(p0, [s1, s2], now) == ExtractAll(p1, [s2], now);
  }

  /**
   A row that renders as an already polled line is not polled again: across
   two single-row snapshots whose rows render as the same line, the line is
   polled once, at the first snapshot's time, while each row's derived
   events are emitted for its own snapshot.
   */
  lemma RepeatedRowPolledOnce(s1: Snapshot, s2: Snapshot, r1: Row, r2: Row, now: Int64)
    requires s1.Added() == [r1] && s2.Added() == [r2]
    requires RowString(r1) == RowString(r2)
    requires !Contains(DisplayName(s1.name), EventsMarker)
    ensures var line := RowString(r1);
      var n1, n2 := DisplayName(s1.name), DisplayName(s2.name);
      Extract([s1, s2], now)
        == AsDerived(DerivedEvents(r1, n1, line, now))
         + [Emitted(Poll, Event(s1.unixTime, "", n1, PollRelation, line))]
         + AsDerived(DerivedEvents(r2, n2, line, now))
  {
    var line := RowString(r1);
    var n1, n2 := DisplayName(s1.name), DisplayName(s2.name);
    var d1, d2 := DerivedEvents(r1, n1, line, now), DerivedEvents(r2, n2, line, now);
    var p0 := Progress([], {});
    var p1 := ExtractSnapshot(p0, s1, now);
    ExtractTwo(s1, s2, now);
    assert p1 == Step(p0, n1, s1.unixTime, line, d1) by {
      SingleRowSnapshot(p0, s1, r1, now);
    }
    assert ExtractSnapshot(p1, s2, now) == Step(p1, n2, s2.unixTime, line, d2) by {
      SingleRowSnapshot(p1, s2, r2, now);
    }
    StepTwice(n1, s1.unixTime, n2, s2.unixTime, line, d1, d2);
  }

  /** Two steps over different lines from the start: each step adds its derived events and its own poll event. */
  lemma StepTwiceDistinct(n1: string, t1: Int64, l1: string, d1: seq<Event>, n2: string, t2: Int64, l2: string, d2: seq<Event>)
    requires l1 != l2
    requires !Contains(n1, EventsMarker) && !Contains(n2, EventsMarker)
    ensures Step(Step(Progress([], {}), n1, t1, l1, d1), n2, t2, l2, d2).emitted
         == AsDerived(d1) + [Emitted(Poll, Event(t1, "", n1, PollRelation, l1))]
          + AsDerived(d2) + [Emitted(Poll, Event(t2, "", n2, PollRelation, l2))]
  {
    var p1 := Step(Progress([], {}), n1, t1, l1, d1);
    assert p1.emitted == AsDerived(d1) + [Emitted(Poll, Event(t1, "", n1, PollRelation, l1))] by {
      assert [] + AsDerived(d1) == AsDerived(d1);
    }
    assert p1.polled == {l1};
  }

  /**
   The same map decoded twice need not be visited in the same order. When
   the two visits render different lines, the later snapshot is not
   recognised as a repeat: both snapshots get a poll event.
   */
  lemma ReorderedRowPolledTwice(s1: Snapshot, s2: Snapshot, r1: Row, r2: Row, now: Int64)
    requires s1.Added() == [r1] && s2.Added() == [r2]
    requires RowString(r1) != RowString(r2)
    requires !Contains(DisplayName(s1.name), EventsMarker) && !Contains(DisplayName(s2.name), EventsMarker)
    ensures var l1, l2 := RowString(r1), RowString(r2);
      var n1, n2 := DisplayName(s1.name), DisplayName(s2.name);
      Extract([s1, s2], now)
        == AsDerived(DerivedEvents(r1, n1, l1, now))
         + [Emitted(Poll, Event(s1.unixTime, "", n1, PollRelation, l1))]
         + AsDerived(DerivedEvents(r2, n2, l2, now))
         + [Emitted(Poll, Event(s2.unixTime, "", n2, PollRelation, l2))]
  {
    var l1, l2 := RowString(r1), RowString(r2);
    var n1, n2 := DisplayName(s1.name), DisplayName(s2.name);
    var d1, d2 := DerivedEvents(r1, n1, l1, now), DerivedEvents(r2, n2, l2, now);
    var p0 := Progress([], {});
    var p1 := ExtractSnapshot(p0, s1, now);
    ExtractTwo(s1, s2, now);
    assert p1 == Step(p0, n1, s1.unixTime, l1, d1) by {
      SingleRowSnapshot(p0, s1, r1, now);
    }
    assert ExtractSnapshot(p1, s2, now) == Step(p1, n2, s2.unixTime, l2, d2) by {
      SingleRowSnapshot(p1, s2, r2, now);
    }
    StepTwiceDistinct(n1, s1.unixTime, l1, d1, n2, s2.unixTime, l2, d2);
  }
}

=== FILE: loader.dfy ===
/**
 Loading snapshots: `readFile`'s decode-with-fallback and the tree walk in
 `main` that reads only `.json` files and keeps only snapshots with added rows.
 The file system and the JSON library are outside the model: a walk is the
 sequence of entries it visits, and a file's content is what the two
 decoding attempts (as an object, then as an array) would answer.
 */
module Loader {
  import opened Wrappers
  import opened Strings
  import opened Snapshots

  /**
   What reading one file yields: an I/O error, or the answers of the two
   decoding attempts. An array decodes into `[]*OutFile`, whose elements are
   `None` where the JSON holds `null`.
   */
  datatype FileContent =
    | Unreadable(readError: string)
    | Decodings(asObject: Result<Snapshot, string>, asArray: Result<seq<Option<Snapshot>>, string>)

  /**
   Why `readFile` produced no snapshot: an error it returned, the
   index-out-of-range panic of taking element 0 of an empty decoded array, or
   the nil dereference when that element is `null`: `readFile` then returns
   a nil snapshot without an error, and the walk panics reading its rows.
   */
  datatype ReadFailure = ReadError(message: string) | EmptyArrayPanic | NilSnapshotPanic

  /**
   `readFile`: the object decoding if it succeeds, otherwise the first element
   of the array decoding; when both fail, the error returned is the object one.
   */
  function ReadFile(content: FileContent): (r: Result<Snapshot, ReadFailure>)
    ensures content.Unreadable? ==> r == Failure(ReadError(content.readError))
    ensures content.Decodings? && content.asObject.Success? ==> r == Success(content.asObject.value)
    ensures content.Decodings? && content.asObject.Failure? ==>
      match content.asArray
      case Success(items) =>
        r == (if |items| == 0 then Failure(EmptyArrayPanic)
              else if items[0].None? then Failure(NilSnapshotPanic)
              else Success(items[0].value))
      case Failure(_) => r == Failure(ReadError(content.asObject.error))
  {
    match content
    case Unreadable(e) => Failure(ReadError(e))
    case Decodings(asObject, asArray) =>
      match asObject
      case Success(s) => Success(s)
      case Failure(objectError) =>
        match asArray
        case Failure(_) => Failure(ReadError(objectError))
        case Success(items) =>
          if |items| == 0 then Failure(EmptyArrayPanic)
          else match items[0]
            case None => Failure(NilSnapshotPanic)
            case Some(first) => Success(first)
  }

  /** One step of `filepath.Walk`: a visited entry, or an error handed to the walk function. */
  datatype WalkEntry =
    | Visit(path: string, name: string, content: FileContent)
    | WalkError(error: string)

  /**
   The result of the walk: the retained snapshots together with the walk
   error `main` logs and then ignores, or the fatal read failure (`klog.Fatalf`)
   that ends the process before any timeline is produced.
   */
  datatype Walked =
    | Walked(snapshots: seq<Snapshot>, walkError: Option<string>)
    | Fatal(path: string, failure: ReadFailure)

  /** The walk function's first test: only names ending in `.json` are read. */
  predicate IsJsonName(name: string) {
    HasSuffix(name, ".json")
  }

  /** `main`'s walk: read every `.json` entry, stop at the first error, keep snapshots with added rows. */
  function Walk(entries: seq<WalkEntry>): (w: Walked)
    ensures w.Walked? ==> forall s :: s in w.snapshots ==> |s.Added()| > 0
    ensures w.Walked? ==> |w.snapshots| <= |entries|
    decreases |entries|
  {
    if |entries| == 0 then Walked([], None)
    else match entries[0]
      case WalkError(e) => Walked([], Some(e))
      case Visit(path, name, content) =>
        if !IsJsonName(name) then Walk(entries[1..])
        else match ReadFile(content)
          case Failure(f) => Fatal(path, f)
          case Success(s) =>
            var rest := Walk(entries[1..]);
            if rest.Fatal? || |s.Added()| == 0 then rest
            else Walked([s] + rest.snapshots, rest.walkError)
  }

  /* ---------------------------------------------------------------------- */
  /* Properties                                                              */
  /* ---------------------------------------------------------------------- */

  /**
   Shape tolerance: a file holding a snapshot as an object and a file holding
   it as the first element of an array load the same snapshot.
   */
  lemma ObjectAndArrayAgree(s: Snapshot, more: seq<Option<Snapshot>>, objectError: string, arrayAnswer: Result<seq<Option<Snapshot>>, string>)
    ensures ReadFile(Decodings(Success(s), arrayAnswer)) == ReadFile(Decodings(Failure(objectError), Success([Some(s)] + more)))
    ensures ReadFile(Decodings(Success(s), arrayAnswer)) == Success(s)
  {
  }

  /** When both decodings fail, the array error is lost: only the object error is returned. */
  lemma BothFailReportsObjectError(objectError: string, arrayError1: string, arrayError2: string)
    ensures ReadFile(Decodings(Failure(objectError), Failure(arrayError1)))
         == ReadFile(Decodings(Failure(objectError), Failure(arrayError2)))
         == Failure(ReadError(objectError))
  {
  }

  /**
   Only the first array element is looked at: a `null` there is fatal
   whatever follows, and a snapshot there is loaded whatever follows.
   */
  lemma ArrayFirstElementDecides(objectError: string, first: Option<Snapshot>, more1: seq<Option<Snapshot>>, more2: seq<Option<Snapshot>>)
    ensures ReadFile(Decodings(Failure(objectError), Success([first] + more1)))
         == ReadFile(Decodings(Failure(objectError), Success([first] + more2)))
         == (if first.None? then Failure(NilSnapshotPanic) else Success(first.value))
  {
  }

  /** The entries the walk actually reads: walk errors and `.json` visits. */
  function JsonOnly(entries: seq<WalkEntry>): (kept: seq<WalkEntry>)
    ensures forall e :: e in kept <==> e in entries && (e.WalkError? || IsJsonName(e.name))
  {
    if |entries| == 0 then []
    else if entries[0].Visit? && !IsJsonName(entries[0].name) then JsonOnly(entries[1..])
    else [entries[0]] + JsonOnly(entries[1..])
  }

  /** Entries whose name does not end in `.json` are never read: removing them, whatever they hold, changes nothing. */
  lemma {:induction false} WalkIgnoresNonJson(entries: seq<WalkEntry>)
    ensures Walk(entries) == Walk(JsonOnly(entries))
    decreases |entries|
  {
    if |entries| > 0 {
      WalkIgnoresNonJson(entries[1..]);
      if !(entries[0].Visit? && !IsJsonName(entries[0].name)) {
        assert JsonOnly(entries)[1..] == JsonOnly(entries[1..]);
      }
    }
  }

  /**
   The walk is a left-to-right scan: when a prefix of the entries completes
   without error, the snapshots it retains come first, in walk order, and
   the rest of the walk continues from there.
   */
  lemma {:induction false} WalkAppend(a: seq<WalkEntry>, b: seq<WalkEntry>)
    requires Walk(a).Walked? && Walk(a).walkError.None?
    ensures Walk(a + b) == match Walk(b)
      case Walked(sb, e) => Walked(Walk(a).snapshots + sb, e)
      case Fatal(p, f) => Fatal(p, f)
    decreases |a|
  {
    if |a| == 0 {
      assert a + b == b;
    } else {
      assert (a + b)[0] == a[0];
      assert (a + b)[1..] == a[1..] + b;
      match a[0]
      case Visit(path, name, content) => {
        if IsJsonName(name) {
          var s := ReadFile(content).value;
          WalkAppend(a[1..], b);
          if |s.Added()| > 0 {
            assert Walk(a).snapshots == [s] + Walk(a[1..]).snapshots;
          }
        } else {
          WalkAppend(a[1..], b);
        }
      }
    }
  }

  /** A `.json` file that loads but has no added rows is read and then dropped. */
  lemma WalkDropsEmptySnapshot(path: string, name: string, content: FileContent, rest: seq<WalkEntry>)
    requires IsJsonName(name) && ReadFile(content).Success? && |ReadFile(content).value.Added()| == 0
    ensures Walk([Visit(path, name, content)] + rest) == Walk(rest)
  {
    assert ([Visit(path, name, content)] + rest)[1..] == rest;
  }

  /** A `.json` file that loads with added rows is kept, ahead of everything retained after it. */
  lemma WalkKeepsSnapshotWithRows(path: string, name: string, content: FileContent, rest: seq<WalkEntry>)
    requires IsJsonName(name) && ReadFile(content).Success? && |ReadFile(content).value.Added()| > 0
    requires Walk(rest).Walked?
    ensures Walk([Visit(path, name, content)] + rest)
         == Walked([ReadFile(content).value] + Walk(rest).snapshots, Walk(rest).walkError)
  {
    assert ([Visit(path, name, content)] + rest)[1..] == rest;
  }

  /** A `.json` file that cannot be loaded ends the run, whatever follows it. */
  lemma WalkFailsOnBadFile(path: string, name: string, content: FileContent, rest: seq<WalkEntry>)
    requires IsJsonName(name) && ReadFile(content).Failure?
    ensures Walk([Visit(path, name, content)] + rest) == Fatal(path, ReadFile(content).error)
  {
  }

  /** A walk error stops the walk without failing the run: nothing after it is read. */
  lemma WalkStopsAtError(error: string, rest: seq<WalkEntry>)
    ensures Walk([WalkError(error)] + rest) == Walked([], Some(error))
  {
  }

  /** Every retained snapshot was loaded from a visited `.json` entry. */
  lemma {:induction false} WalkedSnapshotsComeFromJsonFiles(entries: seq<WalkEntry>)
    requires Walk(entries).Walked?
    ensures forall s :: s in Walk(entries).snapshots ==>
      exists e :: e in entries && e.Visit? && IsJsonName(e.name) && ReadFile(e.content) == Success(s)
    decreases |entries|
  {
    if |entries| > 0 && entries[0].Visit? {
      WalkedSnapshotsComeFromJsonFiles(entries[1..]);
      forall s | s in Walk(entries).snapshots
        ensures exists e :: e in entries && e.Visit? && IsJsonName(e.name) && ReadFile(e.content) == Success(s)
      {
        if s !in Walk(entries[1..]).snapshots {
          assert entries[0] in entries;
        } else {
          var e :| e in entries[1..] && e.Visit? && IsJsonName(e.name) && ReadFile(e.content) == Success(s);
          assert e in entries;
        }
      }
    }
  }
}

=== FILE: snapshot.dfy ===
/**
 The snapshot record the timeline is rebuilt from (`OutFile` in
 cmd/kolide-timeline/main.go), the rendering of a row as its `line`, and
 the display name of a snapshot.
 */
module Snapshots {
  import opened Strings
  import opened Decimal

  /** One key/value pair of a row. */
  datatype Field = Field(key: string, value: string)

  predicate DistinctKeys(fields: seq<Field>) {
    forall i, j :: 0 <= i < j < |fields| ==> fields[i].key != fields[j].key
  }

  /**
   A row is a Go `map[string]string`. It is modelled as its pairs in the
   order a `range` over the map happens to visit them; keys are unique.
   */
  type Row = fields: seq<Field> | DistinctKeys(fields)

  datatype DiffResults = DiffResults(removed: seq<Row>, added: seq<Row>)

  datatype KolideDecorations = KolideDecorations(
    deviceOwnerEmail: string,
    deviceDisplayName: string,
    deviceOwnerType: string)

  /** One decoded snapshot file. */
  datatype Snapshot = Snapshot(
    diffResults: DiffResults,
    name: string,
    decorations: map<string, string>,
    kolideDecorations: KolideDecorations,
    unixTime: Int64)
  {
    function Added(): seq<Row> {
      diffResults.added
    }
  }

  /** The text `rowString` writes for one field whose value is not empty. */
  function FieldText(f: Field): string {
    f.key + ": " + TrimSpace(f.value)
  }

  /** The fields `rowString` writes: those whose value is not the empty string, in visiting order. */
  function Kept(fields: seq<Field>): (kept: seq<Field>)
    ensures |kept| <= |fields|
    ensures forall f :: f in kept <==> f in fields && f.value != ""
  {
    if |fields| == 0 then []
    else if fields[0].value == "" then Kept(fields[1..])
    else [fields[0]] + Kept(fields[1..])
  }

  /** The texts of the given fields, in order. */
  function Texts(fields: seq<Field>): (texts: seq<string>)
    ensures |texts| == |fields|
  {
    if |fields| == 0 then [] else [FieldText(fields[0])] + Texts(fields[1..])
  }

  /** The text at position `i` is the text of the field at position `i`. */
  lemma {:induction false} TextsAt(fields: seq<Field>, i: int)
    requires 0 <= i < |fields|
    ensures Texts(fields)[i] == FieldText(fields[i])
    decreases |fields|
  {
    if i > 0 {
      TextsAt(fields[1..], i - 1);
    }
  }

  /** The content of the string builder after the loop: every kept field's text followed by one space. */
  function Built(fields: seq<Field>): string {
    if |fields| == 0 then ""
    else (if fields[0].value == "" then "" else FieldText(fields[0]) + " ") + Built(fields[1..])
  }

  /** `rowString`: the builder's content with its surrounding white space trimmed. */
  function RowString(r: Row): (line: string)
    ensures line == "" || (!IsSpace(line[0]) && !IsSpace(line[|line| - 1]))
  {
    TrimSpace(Built(r))
  }

  /** The literal prefix removed from snapshot names. */
  const PipelinePrefix: string := "pack:kolide_log_pipeline:"

  /** The display name of a snapshot: its name with every occurrence of the pipeline prefix removed. */
  function DisplayName(name: string): (d: string)
    ensures |d| <= |name|
    ensures !Contains(name, PipelinePrefix) ==> d == name
  {
    if Contains(name, PipelinePrefix) then ReplaceAll(name, PipelinePrefix, "")
    else
      ReplaceAllWithoutOccurrence(name, PipelinePrefix, "");
      ReplaceAll(name, PipelinePrefix, "")
  }

  /* ---------------------------------------------------------------------- */
  /* Properties of the rendering                                             */
  /* ---------------------------------------------------------------------- */

  /** The builder holds the kept texts joined by single spaces, plus one trailing space. */
  lemma {:induction false} BuiltIsJoinPlusSpace(fields: seq<Field>)
    ensures Built(fields) == if Kept(fields) == [] then "" else Join(Texts(Kept(fields)), " ") + " "
    decreases |fields|
  {
    if |fields| > 0 {
      var f := fields[0];
      var rest := Kept(fields[1..]);
      BuiltIsJoinPlusSpace(fields[1..]);
      if f.value == "" {
        assert Kept(fields) == rest;
        assert Built(fields) == Built(fields[1..]);
      } else {
        var t := FieldText(f);
        assert Kept(fields) == [f] + rest;
        assert Built(fields) == t + " " + Built(fields[1..]);
        if rest == [] {
          assert Texts([f] + rest) == [t];
        } else {
          var ts := Texts(rest);
          assert Texts([f] + rest) == [t] + ts;
          JoinCons(t, ts, " ");
          assert t + " " + (Join(ts, " ") + " ") == (t + " " + Join(ts, " ")) + " ";
        }
      }
    }
  }

  /**
   The line is the kept fields' `key: <trimmed value>` texts joined by single
   spaces, with white space around the whole trimmed off.
   */
  lemma RowStringIsTrimmedJoin(r: Row)
    ensures RowString(r) == TrimSpace(Join(Texts(Kept(r)), " "))
  {
    BuiltIsJoinPlusSpace(r);
    if Kept(r) != [] {
      TrimSpaceDropsTrailingSpace(Join(Texts(Kept(r)), " "), ' ');
    }
  }

  /** The joined texts start with the first text and end with the last one. */
  lemma {:induction false} JoinEnds(parts: seq<string>, sep: string)
    requires |parts| > 0 && forall i :: 0 <= i < |parts| ==> |parts[i]| > 0
    ensures var j := Join(parts, sep);
      && |j| > 0
      && j[0] == parts[0][0]
      && j[|j| - 1] == parts[|parts| - 1][|parts[|parts| - 1]| - 1]
    decreases |parts|
  {
    if |parts| > 1 {
      JoinEnds(parts[1..], sep);
    }
  }

  /** Neither a key nor a kept value invites trimming: keys do not start with white space, values are not blank. */
  predicate Tidy(fields: seq<Field>) {
    forall f :: f in fields && f.value != "" ==> (f.key == "" || !IsSpace(f.key[0])) && !AllSpace(f.value)
  }

  /** A field's text begins with its key, or with the colon when the key is empty. */
  lemma FieldTextShape(f: Field)
    ensures var t := FieldText(f);
      && |t| > |f.key|
      && t[|f.key|] == ':'
      && t[0] == (if f.key == "" then ':' else f.key[0])
  {
  }

  /** A field whose value is not blank has a text that does not end in white space. */
  lemma FieldTextEnd(f: Field)
    requires !AllSpace(f.value)
    ensures var t := FieldText(f); !IsSpace(t[|t| - 1])
  {
    TrimSpaceEmptyIffAllSpace(f.value);
    var v := TrimSpace(f.value);
    var t := FieldText(f);
    assert t == (f.key + ": ") + v;
    assert t[|t| - 1] == v[|v| - 1];
  }

  /** Texts of fields with clean keys and non-blank values, joined, neither start nor end with white space. */
  lemma {:induction false} CleanTextsJoin(kept: seq<Field>)
    requires forall i :: 0 <= i < |kept| ==> (kept[i].key == "" || !IsSpace(kept[i].key[0])) && !AllSpace(kept[i].value)
    ensures var j := Join(Texts(kept), " "); j == "" || (!IsSpace(j[0]) && !IsSpace(j[|j| - 1]))
  {
    var texts := Texts(kept);
    if |kept| > 0 {
      forall i | 0 <= i < |texts| ensures |texts[i]| > 0 {
        TextsAt(kept, i);
        FieldTextShape(kept[i]);
      }
      JoinEnds(texts, " ");
      var j := Join(texts, " ");
      var a := texts[0];
      var z := texts[|texts| - 1];
      assert j[0] == a[0] && j[|j| - 1] == z[|z| - 1];
      assert !IsSpace(a[0]) by {
        TextsAt(kept, 0);
        FieldTextShape(kept[0]);
      }
      assert !IsSpace(z[|z| - 1]) by {
        var last := kept[|kept| - 1];
        TextsAt(kept, |kept| - 1);
        FieldTextEnd(last);
      }
    }
  }

  /** The kept texts of a tidy row, joined, neither start nor end with white space. */
  lemma TidyJoinIsClean(r: Row)
    requires Tidy(r)
    ensures var j := Join(Texts(Kept(r)), " "); j == "" || (!IsSpace(j[0]) && !IsSpace(j[|j| - 1]))
  {
    var kept := Kept(r);
    forall i | 0 <= i < |kept|
      ensures (kept[i].key == "" || !IsSpace(kept[i].key[0])) && !AllSpace(kept[i].value)
    {
      assert kept[i] in kept;
    }
    CleanTextsJoin(kept);
  }

  /** For a tidy row the line is exactly the kept texts joined by single spaces. */
  lemma RowStringOfTidyRow(r: Row)
    requires Tidy(r)
    ensures RowString(r) == Join(Texts(Kept(r)), " ")
  {
    RowStringIsTrimmedJoin(r);
    TidyJoinIsClean(r);
    TrimSpaceOfClean(Join(Texts(Kept(r)), " "));
  }

  /**
   The line depends on the visiting order: two fields whose keys start with
   different characters render as different lines in the two orders.
   */
  lemma VisitingOrderChangesLine(k1: string, v1: string, k2: string, v2: string)
    requires k1 != "" && k2 != "" && k1[0] != k2[0] && !IsSpace(k1[0]) && !IsSpace(k2[0])
    requires v1 != "" && !IsSpace(v1[0]) && !IsSpace(v1[|v1| - 1])
    requires v2 != "" && !IsSpace(v2[0]) && !IsSpace(v2[|v2| - 1])
    ensures RowString([Field(k1, v1), Field(k2, v2)]) != RowString([Field(k2, v2), Field(k1, v1)])
  {
    TwoFieldLine(k1, v1, k2, v2);
    TwoFieldLine(k2, v2, k1, v1);
    assert RowString([Field(k1, v1), Field(k2, v2)])[0] == k1[0];
    assert RowString([Field(k2, v2), Field(k1, v1)])[0] == k2[0];
  }

  /** A row of two fields with distinct keys and clean, non-empty values renders as their texts joined by a space. */
  lemma TwoFieldLine(k1: string, v1: string, k2: string, v2: string)
    requires k1 != k2 && k1 != "" && !IsSpace(k1[0])
    requires v1 != "" && !IsSpace(v1[0]) && !IsSpace(v1[|v1| - 1])
    requires v2 != "" && !IsSpace(v2[0]) && !IsSpace(v2[|v2| - 1])
    ensures RowString([Field(k1, v1), Field(k2, v2)]) == k1 + ": " + v1 + " " + k2 + ": " + v2
  {
    var fs := [Field(k1, v1), Field(k2, v2)];
    TrimSpaceOfClean(v1);
    TrimSpaceOfClean(v2);
    assert Kept(fs) == fs by {
      assert fs[1..] == [Field(k2, v2)];
      assert [Field(k2, v2)][1..] == [];
    }
    var t1, t2 := k1 + ": " + v1, k2 + ": " + v2;
    assert Texts(fs) == [t1, t2] by {
      assert fs[1..] == [Field(k2, v2)];
      assert [Field(k2, v2)][1..] == [];
    }
    assert Join([t1, t2], " ") == t1 + " " + t2 by {
      JoinCons(t1, [t2], " ");
    }
    var line := t1 + " " + t2;
    assert line[0] == k1[0];
    assert line[|line| - 1] == v2[|v2| - 1];
    TrimSpaceOfClean(line);
    RowStringIsTrimmedJoin(fs);
  }

  /** Joined texts of at least one field hold a colon, so they are never blank. */
  lemma JoinedTextsNotBlank(kept: seq<Field>)
    requires kept != []
    ensures !AllSpace(Join(Texts(kept), " "))
  {
    var texts := Texts(kept);
    var f := kept[0];
    FieldTextShape(f);
    TextsAt(kept, 0);
    JoinStartsWithFirst(texts, " ");
    var j := Join(texts, " ");
    assert j[|f.key|] == ':';
  }

  /** The line is empty exactly when every value in the row is the empty string. */
  lemma RowStringEmptyIff(r: Row)
    ensures RowString(r) == "" <==> forall f :: f in r ==> f.value == ""
  {
    RowStringIsTrimmedJoin(r);
    var kept := Kept(r);
    var j := Join(Texts(kept), " ");
    TrimSpaceEmptyIffAllSpace(j);
    if kept == [] {
      assert j == "";
    } else {
      assert kept[0] in r && kept[0].value != "" by {
        assert kept[0] in kept;
      }
      JoinedTextsNotBlank(kept);
    }
  }

  /* ---------------------------------------------------------------------- */
  /* Properties of the display name                                          */
  /* ---------------------------------------------------------------------- */

  /** A name that does not contain the prefix is its own display name. */
  lemma DisplayNameWithoutPrefix(name: string)
    requires !Contains(name, PipelinePrefix)
    ensures DisplayName(name) == name
  {
    ReplaceAllWithoutOccurrence(name, PipelinePrefix, "");
  }

  /**
   Every occurrence is removed, not only a leading one: the display name is
   the concatenation of the pieces the name splits into around the prefix.
   */
  lemma DisplayNameRemovesEveryOccurrence(name: string)
    ensures var pieces := SplitOn(name, PipelinePrefix);
      && DisplayName(name) == Join(pieces, "")
      && Join(pieces, PipelinePrefix) == name
      && forall k :: 0 <= k < |pieces| ==> !Contains(pieces[k], PipelinePrefix)
  {
    RemoveAllOccurrences(name, PipelinePrefix);
  }

  /** A leading prefix is dropped and the rest of the name is processed in turn. */
  lemma DisplayNameOfPrefixed(rest: string)
    ensures DisplayName(PipelinePrefix + rest) == DisplayName(rest)
  {
    var s := PipelinePrefix + rest;
    assert s[..|PipelinePrefix|] == PipelinePrefix;
    assert s[|PipelinePrefix|..] == rest;
  }
}

=== FILE: strings.dfy ===
/**
 The fragment of Go's `strings` package the timeline and copier rely on:
 `Contains`, `HasSuffix`, `Split`, `ReplaceAll` and `TrimSpace`, over
 strings as sequences of Unicode scalar values.
 */
module Strings {

  /** `sub` occurs in `s` starting at index `i`. */
  predicate OccursAt(s: string, sub: string, i: int) {
    0 <= i && i + |sub| <= |s| && s[i..i + |sub|] == sub
  }

  /** Go's `strings.Contains`: a plain substring test (the empty string occurs everywhere). */
  predicate Contains(s: string, sub: string) {
    exists i :: 0 <= i <= |s| - |sub| && OccursAt(s, sub, i)
  }

  /** Go's `strings.HasPrefix`. */
  predicate HasPrefix(s: string, p: string) {
    |p| <= |s| && s[..|p|] == p
  }

  /** Go's `strings.HasSuffix`. */
  predicate HasSuffix(s: string, p: string) {
    |p| <= |s| && s[|s| - |p|..] == p
  }

  /** Go's `strings.Join`: the parts with `sep` between consecutive ones. */
  function Join(parts: seq<string>, sep: string): string {
    if |parts| == 0 then ""
    else if |parts| == 1 then parts[0]
    else parts[0] + sep + Join(parts[1..], sep)
  }

  /**
   Go's `strings.Split(s, sep)` for a non-empty separator: the pieces between
   the occurrences of `sep` found by a left-to-right, non-overlapping scan.
   There is always at least one piece, so `Split("", ",")` is `[""]`.
   */
  function SplitOn(s: string, sep: string): (parts: seq<string>)
    requires |sep| > 0
    ensures |parts| >= 1
    decreases |s|
  {
    if |s| < |sep| then [s]
    else if s[..|sep|] == sep then [""] + SplitOn(s[|sep|..], sep)
    else
      var rest := SplitOn(s[1..], sep);
      [[s[0]] + rest[0]] + rest[1..]
  }

  /**
   Go's `strings.ReplaceAll(s, pat, rep)` for a non-empty `pat`: every
   occurrence found by the left-to-right scan is replaced, not only a leading one.
   */
  function ReplaceAll(s: string, pat: string, rep: string): (r: string)
    requires |pat| > 0
    ensures |rep| <= |pat| ==> |r| <= |s|
    decreases |s|
  {
    if |s| < |pat| then s
    else if s[..|pat|] == pat then rep + ReplaceAll(s[|pat|..], pat, rep)
    else [s[0]] + ReplaceAll(s[1..], pat, rep)
  }

  /** Go's `unicode.IsSpace`, the predicate `strings.TrimSpace` trims by. */
  predicate IsSpace(c: char) {
    || c == '\t' || c == '\n' || c == '\U{0B}' || c == '\U{0C}' || c == '\r' || c == ' '
    || c == '\U{85}' || c == '\U{A0}' || c == '\U{1680}'
    || ('\U{2000}' <= c <= '\U{200A}')
    || c == '\U{2028}' || c == '\U{2029}' || c == '\U{202F}' || c == '\U{205F}' || c == '\U{3000}'
  }

  predicate AllSpace(s: string) {
    forall i :: 0 <= i < |s| ==> IsSpace(s[i])
  }

  /** Drops the leading white space: the result is a suffix of `s` that is empty or starts with a non-space. */
  function TrimLeft(s: string): (r: string)
    ensures |r| <= |s|
    ensures r == "" || !IsSpace(r[0])
    decreases |s|
  {
    if |s| > 0 && IsSpace(s[0]) then TrimLeft(s[1..]) else s
  }

  /** Drops the trailing white space: the result is a prefix of `s` that is empty or ends with a non-space. */
  function TrimRight(s: string): (r: string)
    ensures |r| <= |s|
    ensures r == "" || !IsSpace(r[|r| - 1])
    decreases |s|
  {
    if |s| > 0 && IsSpace(s[|s| - 1]) then TrimRight(s[..|s| - 1]) else s
  }

  /**
   Go's `strings.TrimSpace`: `s` with its leading and trailing white space
   removed; the result neither starts nor ends with white space.
   */
  function TrimSpace(s: string): (r: string)
    ensures r == "" || (!IsSpace(r[0]) && !IsSpace(r[|r| - 1]))
  {
    var l := TrimLeft(s);
    TrimRightIsPrefix(l);
    TrimRight(l)
  }

  /** `TrimLeft` keeps a suffix of its argument. */
  lemma {:induction false} TrimLeftIsSuffix(s: string)
    ensures TrimLeft(s) == s[|s| - |TrimLeft(s)|..]
    decreases |s|
  {
    if |s| > 0 && IsSpace(s[0]) {
      TrimLeftIsSuffix(s[1..]);
    }
  }

  /** `TrimRight` keeps a prefix of its argument. */
  lemma {:induction false} TrimRightIsPrefix(s: string)
    ensures TrimRight(s) == s[..|TrimRight(s)|]
    decreases |s|
  {
    if |s| > 0 && IsSpace(s[|s| - 1]) {
      TrimRightIsPrefix(s[..|s| - 1]);
    }
  }

  /** Everything `TrimLeft` drops is white space. */
  lemma {:induction false} TrimLeftDropsSpace(s: string)
    ensures AllSpace(s[..|s| - |TrimLeft(s)|])
    decreases |s|
  {
    if |s| > 0 && IsSpace(s[0]) {
      TrimLeftDropsSpace(s[1..]);
      var n := |s| - |TrimLeft(s)|;
      forall k | 0 <= k < n ensures IsSpace(s[k]) {
        if k > 0 {
          assert s[1..][..n - 1][k - 1] == s[k];
        }
      }
    }
  }

  /** Everything `TrimRight` drops is white space. */
  lemma {:induction false} TrimRightDropsSpace(s: string)
    ensures AllSpace(s[|TrimRight(s)|..])
    decreases |s|
  {
    if |s| > 0 && IsSpace(s[|s| - 1]) {
      var init := s[..|s| - 1];
      TrimRightDropsSpace(init);
      var n := |TrimRight(s)|;
      forall k | n <= k < |s| ensures IsSpace(s[k]) {
        if k < |s| - 1 {
          assert init[n..][k - n] == s[k];
        }
      }
    }
  }

  /** What `TrimSpace` keeps is a slice of `s` with only white space on either side of it. */
  lemma TrimSpaceIsSlice(s: string)
    ensures var r := TrimSpace(s);
      exists i :: 0 <= i <= |s| - |r| && s[i..i + |r|] == r && AllSpace(s[..i]) && AllSpace(s[i + |r|..])
  {
    var l := TrimLeft(s);
    var r := TrimRight(l);
    var i := |s| - |l|;
    TrimLeftIsSuffix(s);
    TrimRightIsPrefix(l);
    TrimLeftDropsSpace(s);
    TrimRightDropsSpace(l);
    assert l == s[i..] && r == l[..|r|];
    SliceOfSuffix(s, i, |r|);
    assert 0 <= i <= |s| - |r| && s[i..i + |r|] == r && AllSpace(s[..i]) && AllSpace(s[i + |r|..]);
  }

  lemma SliceOfSuffix(s: string, i: int, n: int)
    requires 0 <= i && 0 <= n && i + n <= |s|
    ensures s[i..][..n] == s[i..i + n] && s[i..][n..] == s[i + n..]
  {
  }

  /* ---------------------------------------------------------------------- */
  /* Split, Join and ReplaceAll                                              */
  /* ---------------------------------------------------------------------- */

  /** Concatenation is associative (stated once so that large contexts need not rediscover it). */
  lemma AppendAssoc<T>(a: seq<T>, b: seq<T>, c: seq<T>)
    ensures (a + b) + c == a + (b + c)
  {
  }

  /** Joining a first part in front of at least one other puts the separator between them. */
  lemma JoinCons(p: string, rest: seq<string>, sep: string)
    requires |rest| >= 1
    ensures Join([p] + rest, sep) == p + sep + Join(rest, sep)
  {
    assert ([p] + rest)[1..] == rest;
  }

  /** Prepending a character to the first part prepends it to the joined string. */
  lemma {:induction false} JoinConsFirst(c: char, p: string, tail: seq<string>, sep: string)
    ensures Join([[c] + p] + tail, sep) == [c] + Join([p] + tail, sep)
  {
    if |tail| > 0 {
      assert ([[c] + p] + tail)[1..] == tail;
      assert ([p] + tail)[1..] == tail;
    }
  }

  /** A joined sequence of parts starts with its first part. */
  lemma JoinStartsWithFirst(parts: seq<string>, sep: string)
    requires |parts| >= 1
    ensures HasPrefix(Join(parts, sep), parts[0])
  {
  }

  /** Splitting and joining back with the same separator gives the original string. */
  lemma {:induction false} SplitJoinRoundTrip(s: string, sep: string)
    requires |sep| > 0
    ensures Join(SplitOn(s, sep), sep) == s
    decreases |s|
  {
    if |s| < |sep| {
    } else if s[..|sep|] == sep {
      var rest := SplitOn(s[|sep|..], sep);
      assert SplitOn(s, sep) == [""] + rest;
      SplitJoinRoundTrip(s[|sep|..], sep);
      JoinCons("", rest, sep);
      assert s == sep + s[|sep|..];
    } else {
      var rest := SplitOn(s[1..], sep);
      assert SplitOn(s, sep) == [[s[0]] + rest[0]] + rest[1..];
      SplitJoinRoundTrip(s[1..], sep);
      JoinConsFirst(s[0], rest[0], rest[1..], sep);
      assert [rest[0]] + rest[1..] == rest;
      assert s == [s[0]] + s[1..];
    }
  }

  /** The first piece of a split is a prefix of the string. */
  lemma {:induction false} SplitHeadIsPrefix(s: string, sep: string)
    requires |sep| > 0
    ensures var p := SplitOn(s, sep)[0]; |p| <= |s| && p == s[..|p|]
    decreases |s|
  {
    if |s| >= |sep| && s[..|sep|] != sep {
      SplitHeadIsPrefix(s[1..], sep);
    }
  }

  /** No piece produced by the scan contains the separator. */
  lemma {:induction false} SplitPiecesAvoidSeparator(s: string, sep: string)
    requires |sep| > 0
    ensures forall k :: 0 <= k < |SplitOn(s, sep)| ==> !Contains(SplitOn(s, sep)[k], sep)
    decreases |s|
  {
    var parts := SplitOn(s, sep);
    if |s| < |sep| {
    } else if s[..|sep|] == sep {
      SplitPiecesAvoidSeparator(s[|sep|..], sep);
      var rest := SplitOn(s[|sep|..], sep);
      assert parts == [""] + rest;
      forall k | 0 < k < |parts|
        ensures !Contains(parts[k], sep)
      {
        assert parts[k] == rest[k - 1];
      }
    } else {
      SplitPiecesAvoidSeparator(s[1..], sep);
      var rest := SplitOn(s[1..], sep);
      var p0 := [s[0]] + rest[0];
      assert parts == [p0] + rest[1..];
      SplitHeadIsPrefix(s, sep);
      forall i | 0 <= i <= |p0| - |sep|
        ensures !OccursAt(p0, sep, i)
      {
        if i == 0 {
          assert p0[..|sep|] == s[..|sep|];
        } else {
          assert p0[i..i + |sep|] == rest[0][i - 1..i - 1 + |sep|];
          assert !OccursAt(rest[0], sep, i - 1);
        }
      }
      forall k | 0 < k < |parts|
        ensures !Contains(parts[k], sep)
      {
        assert parts[k] == rest[k];
      }
    }
  }

  /** A string that does not contain the separator splits into itself alone. */
  lemma {:induction false} SplitWithoutSeparator(s: string, sep: string)
    requires |sep| > 0
    requires !Contains(s, sep)
    ensures SplitOn(s, sep) == [s]
    decreases |s|
  {
    if |s| < |sep| {
    } else {
      assert !OccursAt(s, sep, 0);
      forall i | OccursAt(s[1..], sep, i)
        ensures OccursAt(s, sep, i + 1)
      {
        assert s[1..][i..i + |sep|] == s[i + 1..i + 1 + |sep|];
      }
      SplitWithoutSeparator(s[1..], sep);
      assert [s[0]] + s[1..] == s;
    }
  }

  /** `ReplaceAll(s, pat, rep)` is splitting on `pat` and joining with `rep`. */
  lemma {:induction false} ReplaceAllIsSplitJoin(s: string, pat: string, rep: string)
    requires |pat| > 0
    ensures ReplaceAll(s, pat, rep) == Join(SplitOn(s, pat), rep)
    decreases |s|
  {
    if |s| < |pat| {
    } else if s[..|pat|] == pat {
      var rest := SplitOn(s[|pat|..], pat);
      ReplaceAllIsSplitJoin(s[|pat|..], pat, rep);
      assert ([""] + rest)[1..] == rest;
    } else {
      var rest := SplitOn(s[1..], pat);
      ReplaceAllIsSplitJoin(s[1..], pat, rep);
      JoinConsFirst(s[0], rest[0], rest[1..], rep);
      assert [rest[0]] + rest[1..] == rest;
    }
  }

  /**
   Removing every occurrence of `pat`: the result is the concatenation of
   pieces that, joined back with `pat`, give `s`, and none of which contains `pat`.
   */
  lemma RemoveAllOccurrences(s: string, pat: string)
    requires |pat| > 0
    ensures var pieces := SplitOn(s, pat);
      && ReplaceAll(s, pat, "") == Join(pieces, "")
      && Join(pieces, pat) == s
      && forall k :: 0 <= k < |pieces| ==> !Contains(pieces[k], pat)
  {
    ReplaceAllIsSplitJoin(s, pat, "");
    SplitJoinRoundTrip(s, pat);
    SplitPiecesAvoidSeparator(s, pat);
  }

  /** A string without any occurrence of `pat` is left unchanged by `ReplaceAll`. */
  lemma ReplaceAllWithoutOccurrence(s: string, pat: string, rep: string)
    requires |pat| > 0
    requires !Contains(s, pat)
    ensures ReplaceAll(s, pat, rep) == s
  {
    ReplaceAllIsSplitJoin(s, pat, rep);
    SplitWithoutSeparator(s, pat);
  }

  /* ---------------------------------------------------------------------- */
  /* TrimSpace                                                               */
  /* ---------------------------------------------------------------------- */

  /** Appending a space to a string that is not all white space appends it to the left-trimmed string. */
  lemma {:induction false} TrimLeftAppendSpace(x: string, c: char)
    requires IsSpace(c)
    ensures TrimLeft(x + [c]) == if AllSpace(x) then [] else TrimLeft(x) + [c]
    decreases |x|
  {
    if |x| == 0 {
      assert TrimLeft([c]) == TrimLeft([]);
    } else if IsSpace(x[0]) {
      assert (x + [c])[1..] == x[1..] + [c];
      TrimLeftAppendSpace(x[1..], c);
      if AllSpace(x[1..]) {
        assert AllSpace(x);
      } else {
        assert !AllSpace(x);
      }
    } else {
      assert !AllSpace(x);
    }
  }

  /** A trailing white-space character does not change what `TrimSpace` keeps. */
  lemma TrimSpaceDropsTrailingSpace(x: string, c: char)
    requires IsSpace(c)
    ensures TrimSpace(x + [c]) == TrimSpace(x)
  {
    TrimLeftAppendSpace(x, c);
    if AllSpace(x) {
      TrimLeftAllSpace(x);
    } else {
      var y := TrimLeft(x);
      assert (y + [c])[..|y|] == y;
    }
  }

  /** A string that neither starts nor ends with white space is its own `TrimSpace`. */
  lemma TrimSpaceOfClean(s: string)
    requires s == "" || (!IsSpace(s[0]) && !IsSpace(s[|s| - 1]))
    ensures TrimSpace(s) == s
  {
  }

  /** A string made only of white space left-trims to nothing. */
  lemma {:induction false} TrimLeftAllSpace(s: string)
    requires AllSpace(s)
    ensures TrimLeft(s) == ""
    decreases |s|
  {
    if |s| > 0 {
      assert IsSpace(s[0]);
      assert AllSpace(s[1..]) by {
        forall k | 0 <= k < |s| - 1 ensures IsSpace(s[1..][k]) {
          assert s[1..][k] == s[k + 1];
        }
      }
      TrimLeftAllSpace(s[1..]);
    }
  }

  /** A non-space character at index `i` survives left-trimming. */
  lemma {:induction false} TrimLeftKeeps(s: string, i: int)
    requires 0 <= i < |s| && !IsSpace(s[i])
    ensures |TrimLeft(s)| >= |s| - i
    decreases |s|
  {
    if IsSpace(s[0]) {
      assert s[1..][i - 1] == s[i];
      TrimLeftKeeps(s[1..], i - 1);
    }
  }

  /** A non-space character at index `i` survives right-trimming. */
  lemma {:induction false} TrimRightKeeps(s: string, i: int)
    requires 0 <= i < |s| && !IsSpace(s[i])
    ensures |TrimRight(s)| > i
    decreases |s|
  {
    if IsSpace(s[|s| - 1]) {
      assert s[..|s| - 1][i] == s[i];
      TrimRightKeeps(s[..|s| - 1], i);
    }
  }

  /** `TrimSpace` is empty exactly for strings made only of white space. */
  lemma TrimSpaceEmptyIffAllSpace(s: string)
    ensures TrimSpace(s) == "" <==> AllSpace(s)
  {
    if AllSpace(s) {
      TrimLeftAllSpace(s);
    } else {
      var i :| 0 <= i < |s| && !IsSpace(s[i]);
      TrimSpaceKeepsNonSpace(s, i);
    }
  }

  /** A string with a non-space character somewhere does not trim to nothing. */
  lemma TrimSpaceKeepsNonSpace(s: string, i: int)
    requires 0 <= i < |s| && !IsSpace(s[i])
    ensures TrimSpace(s) != ""
  {
    var l := TrimLeft(s);
    var k := |s| - |l|;
    TrimLeftKeeps(s, i);
    TrimLeftIsSuffix(s);
    assert l[i - k] == s[i];
    TrimRightKeeps(l, i - k);
  }
}

=== FILE: sync.dfy ===
/**
 The object selection of cmd/copy-from-gs/main.go: which objects of a bucket
 listing `syncFiles` downloads for one device. The storage client, the
 listing iterator, the download and the local file system are outside the
 model: a listing is the sequence of answers the iterator gives, the local
 files are a map from name to size, and a download is a function from the
 object name to the number of bytes written or the error that ends the process.
 */
module Sync {
  import opened Wrappers
  import opened Strings
  import opened Decimal

  /** Objects of at most this many bytes are taken to be empty and skipped. */
  const MaxEmptySize: int := 128

  /** The attributes of a listed object that the selection looks at; `created` is in nanoseconds. */
  datatype ObjectAttrs = ObjectAttrs(name: string, created: int, size: Int64)

  /** `CollectConfig`: the listing prefix, the device, the creation-time cutoff and the excluded sub-directories. */
  datatype CollectConfig = CollectConfig(prefix: string, deviceId: Int64, cutoff: int, excludeSubdirs: seq<string>)

  /** The exclude list `main` builds: the setting split at every comma. */
  function ExcludeList(setting: string): (ds: seq<string>)
    ensures |ds| >= 1
    ensures Join(ds, ",") == setting
    ensures forall k :: 0 <= k < |ds| ==> !Contains(ds[k], ",")
  {
    SplitJoinRoundTrip(setting, ",");
    SplitPiecesAvoidSeparator(setting, ",");
    SplitOn(setting, ",")
  }

  /** The oldest creation time still copied: the current time minus the maximum age. */
  function Cutoff(now: int, maxAge: int): int {
    now - maxAge
  }

  /** The configuration `main` passes to `syncFiles`. */
  function Config(prefix: string, excludeSetting: string, now: int, maxAge: int, deviceId: Int64): (cc: CollectConfig)
    ensures cc.prefix == prefix && cc.deviceId == deviceId
    ensures cc.cutoff + maxAge == now
    ensures |cc.excludeSubdirs| >= 1 && Join(cc.excludeSubdirs, ",") == excludeSetting
  {
    CollectConfig(prefix, deviceId, Cutoff(now, maxAge), ExcludeList(excludeSetting))
  }

  /** The text an object name must contain to belong to the device. */
  function DeviceTag(id: Int64): string {
    "device-" + FormatInt(id)
  }

  /** The path segment an excluded sub-directory name must appear as. */
  function Segment(d: string): string {
    "/" + d + "/"
  }

  /** The exclusion loop: scans the list in order and stops at the first sub-directory the name contains. */
  function AnyExcluded(name: string, excludes: seq<string>): (matched: bool)
    ensures matched <==> exists d :: d in excludes && Contains(name, Segment(d))
    decreases |excludes|
  {
    if |excludes| == 0 then false
    else if Contains(name, Segment(excludes[0])) then true
    else
      assert forall d :: d in excludes <==> d == excludes[0] || d in excludes[1..] by {
        assert excludes == [excludes[0]] + excludes[1..];
      }
      AnyExcluded(name, excludes[1..])
  }

  /** Why an object is skipped, or that it is fetched. */
  datatype Decision =
    | SkipExcluded
    | SkipStale
    | SkipTooSmall
    | SkipOtherDevice
    | SkipUnchanged
    | Fetch

  /**
   The checks of the loop body, in the order the source makes them; `local`
   is the size of an existing local file of the same name, if there is one.
   */
  function Decide(cc: CollectConfig, attrs: ObjectAttrs, local: Option<int>): (d: Decision)
    ensures d == Fetch <==>
      && (forall x :: x in cc.excludeSubdirs ==> !Contains(attrs.name, Segment(x)))
      && attrs.created >= cc.cutoff
      && attrs.size > MaxEmptySize
      && Contains(attrs.name, DeviceTag(cc.deviceId))
      && (local.None? || local.value != attrs.size)
  {
    if AnyExcluded(attrs.name, cc.excludeSubdirs) then SkipExcluded
    else if attrs.created < cc.cutoff then SkipStale
    else if attrs.size <= MaxEmptySize then SkipTooSmall
    else if !Contains(attrs.name, DeviceTag(cc.deviceId)) then SkipOtherDevice
    else if local.Some? && local.value == attrs.size then SkipUnchanged
    else Fetch
  }

  /* ---------------------------------------------------------------------- */
  /* The loop over the listing                                               */
  /* ---------------------------------------------------------------------- */

  /** One answer of the listing iterator: an object, or an error (the end of the listing is the end of the sequence). */
  datatype ListItem = Listed(attrs: ObjectAttrs) | ListError(error: string)

  /**
   The end of `syncFiles`: the slice it returns, the names it downloaded in
   order and the listing error it logged, or the download or write failure
   that ends the process.
   */
  datatype SyncOutcome =
    | Synced(returned: seq<string>, fetched: seq<string>, listError: Option<string>)
    | Aborted(name: string, error: string)

  function Lookup(local: map<string, int>, name: string): Option<int> {
    if name in local then Some(local[name]) else None
  }

  /**
   The loop from the current listing position: `fetched` holds the names
   downloaded so far, and every download writes a local file of the size read.
   */
  function SyncLoop(cc: CollectConfig, items: seq<ListItem>, local: map<string, int>,
                    fetch: string -> Result<nat, string>, fetched: seq<string>): (o: SyncOutcome)
    ensures o.Synced? ==> o.returned == []
    ensures o.Synced? ==> fetched <= o.fetched && |o.fetched| <= |fetched| + |items|
    decreases |items|
  {
    if |items| == 0 then Synced([], fetched, None)
    else match items[0]
      case ListError(e) => Synced([], fetched, Some(e))
      case Listed(attrs) =>
        if Decide(cc, attrs, Lookup(local, attrs.name)) != Fetch then SyncLoop(cc, items[1..], local, fetch, fetched)
        else match fetch(attrs.name)
          case Failure(e) => Aborted(attrs.name, e)
          case Success(n) => SyncLoop(cc, items[1..], local[attrs.name := n], fetch, fetched + [attrs.name])
  }

  /** `syncFiles` over a whole listing. */
  function SyncFiles(cc: CollectConfig, items: seq<ListItem>, local: map<string, int>,
                     fetch: string -> Result<nat, string>): (o: SyncOutcome)
    ensures o.Synced? ==> o.returned == [] && |o.fetched| <= |items|
  {
    SyncLoop(cc, items, local, fetch, [])
  }

  /* ---------------------------------------------------------------------- */
  /* Properties of the selection                                             */
  /* ---------------------------------------------------------------------- */

  /**
   An empty exclude setting still yields one entry, the empty name, whose
   segment is `//`: every object whose name contains `//` is skipped.
   */
  lemma EmptyExcludeSetting(name: string)
    ensures ExcludeList("") == [""]
    ensures AnyExcluded(name, ExcludeList("")) <==> Contains(name, "//")
  {
    assert Segment("") == "//";
  }

  /** With no exclude setting, `main`'s configuration skips every object whose name contains `//`. */
  lemma DefaultConfigSkipsDoubleSlash(prefix: string, now: int, maxAge: int, deviceId: Int64, attrs: ObjectAttrs, local: Option<int>)
    requires Contains(attrs.name, "//")
    ensures Decide(Config(prefix, "", now, maxAge, deviceId), attrs, local) == SkipExcluded
  {
    EmptyExcludeSetting(attrs.name);
  }

  /** A comma-free setting excludes exactly one sub-directory. */
  lemma SingleExcludeSetting(setting: string)
    requires !Contains(setting, ",")
    ensures ExcludeList(setting) == [setting]
  {
    SplitWithoutSeparator(setting, ",");
  }

  /** Objects created strictly before the cutoff are skipped; one created exactly at the cutoff is not. */
  lemma CutoffIsStrict(cc: CollectConfig, attrs: ObjectAttrs, local: Option<int>)
    ensures attrs.created < cc.cutoff ==> Decide(cc, attrs, local) != Fetch
    ensures attrs.created == cc.cutoff ==> Decide(cc, attrs, local) != SkipStale
  {
  }

  /** The size threshold is inclusive: 128 bytes is skipped, 129 bytes passes that check. */
  lemma SizeThresholdInclusive(cc: CollectConfig, name: string, created: int, local: Option<int>)
    ensures Decide(cc, ObjectAttrs(name, created, 128), local) != Fetch
    ensures Decide(cc, ObjectAttrs(name, created, 129), local) != SkipTooSmall
  {
  }

  /** `FormatNat` of a number with one more digit extends the rendering of the number without it. */
  lemma FormatNatAppend(n: nat, d: nat)
    requires 0 < n && d < 10
    ensures FormatNat(n * 10 + d) == FormatNat(n) + [DigitChar(d)]
  {
    assert (n * 10 + d) / 10 == n && (n * 10 + d) % 10 == d;
  }

  /**
   The device test is a substring test: the tag of a positive id is a prefix of
   the tag of any id that extends it by a digit, so every object of device 12
   also passes the device check for device 1.
   */
  lemma DeviceTagIsPrefixMatch(id: Int64, d: nat, name: string)
    requires 0 < id && d < 10 && id * 10 + d <= MaxInt64
    requires Contains(name, DeviceTag(id * 10 + d))
    ensures Contains(name, DeviceTag(id))
  {
    var longer := DeviceTag(id * 10 + d);
    var short := DeviceTag(id);
    FormatNatAppend(id, d);
    assert longer == short + [DigitChar(d)];
    var i :| 0 <= i <= |name| - |longer| && OccursAt(name, longer, i);
    assert name[i..i + |short|] == longer[..|short|];
    assert OccursAt(name, short, i);
  }

  /** Device 1 matches an object of device 12. */
  lemma DeviceOneMatchesDeviceTwelve()
    ensures Contains("logs/device-12/a.json", DeviceTag(1))
  {
    var name := "logs/device-12/a.json";
    assert DeviceTag(1) == "device-1";
    assert OccursAt(name, DeviceTag(1), 5);
  }

  /** A local file of the same size prevents the download; one of any other size does not. */
  lemma LocalSizeDecides(cc: CollectConfig, attrs: ObjectAttrs, size: int)
    requires Decide(cc, attrs, None) == Fetch
    ensures Decide(cc, attrs, Some(size)) == Fetch <==> size != attrs.size
  {
  }

  /* ---------------------------------------------------------------------- */
  /* Properties of the loop                                                  */
  /* ---------------------------------------------------------------------- */

  /** Position `i` of the listing is an object named `n` that `Decide` selects against `local`. */
  predicate SelectsAt(cc: CollectConfig, items: seq<ListItem>, local: map<string, int>, i: int, n: string) {
    && 0 <= i < |items|
    && items[i].Listed?
    && items[i].attrs.name == n
    && Decide(cc, items[i].attrs, Lookup(local, n)) == Fetch
  }

  /** The names a listing selects when each object is judged against the same local files. */
  function Selected(cc: CollectConfig, items: seq<ListItem>, local: map<string, int>): (names: seq<string>)
    ensures forall n :: n in names <==> exists i :: SelectsAt(cc, items, local, i, n)
    decreases |items|
  {
    if |items| == 0 then []
    else
      var rest := Selected(cc, items[1..], local);
      var here := if items[0].Listed? && SelectsAt(cc, items, local, 0, items[0].attrs.name) then [items[0].attrs.name] else [];
      SelectedShift(cc, items, local, rest);
      here + rest
  }

  /** The positions of the tail are the positions of the listing after its first. */
  lemma SelectedShift(cc: CollectConfig, items: seq<ListItem>, local: map<string, int>, rest: seq<string>)
    requires |items| > 0
    requires forall n :: n in rest <==> exists i :: SelectsAt(cc, items[1..], local, i, n)
    ensures forall n :: n in rest <==> exists i :: 1 <= i && SelectsAt(cc, items, local, i, n)
  {
    forall n ensures n in rest <==> exists i :: 1 <= i && SelectsAt(cc, items, local, i, n) {
      if n in rest {
        var j :| SelectsAt(cc, items[1..], local, j, n);
        assert items[j + 1] == items[1..][j];
        assert SelectsAt(cc, items, local, j + 1, n);
      }
      if exists i :: 1 <= i && SelectsAt(cc, items, local, i, n) {
        var i :| 1 <= i && SelectsAt(cc, items, local, i, n);
        assert items[1..][i - 1] == items[i];
        assert SelectsAt(cc, items[1..], local, i - 1, n);
      }
    }
  }

  /** The listing holds objects only, with pairwise different names. */
  predicate CleanListing(items: seq<ListItem>) {
    && (forall i :: 0 <= i < |items| ==> items[i].Listed?)
    && (forall i, j :: 0 <= i < j < |items| ==> items[i].attrs.name != items[j].attrs.name)
  }

  /** Writing a file under a name the rest of the listing does not use changes nothing for the rest. */
  lemma {:induction false} SelectedIgnoresOtherFiles(cc: CollectConfig, items: seq<ListItem>, local: map<string, int>, name: string, size: int)
    requires CleanListing(items)
    requires forall i :: 0 <= i < |items| ==> items[i].attrs.name != name
    ensures Selected(cc, items, local[name := size]) == Selected(cc, items, local)
    decreases |items|
  {
    if |items| > 0 {
      assert Lookup(local[name := size], items[0].attrs.name) == Lookup(local, items[0].attrs.name);
      SelectedIgnoresOtherFiles(cc, items[1..], local, name, size);
    }
  }

  /** The tail of a clean listing is clean, and does not reuse the first object's name. */
  lemma CleanListingTail(items: seq<ListItem>)
    requires CleanListing(items) && |items| > 0
    ensures CleanListing(items[1..])
    ensures forall i :: 0 <= i < |items[1..]| ==> items[1..][i].attrs.name != items[0].attrs.name
  {
    var rest := items[1..];
    forall i, j | 0 <= i < j < |rest| ensures rest[i].attrs.name != rest[j].attrs.name {
      assert rest[i] == items[i + 1] && rest[j] == items[j + 1];
    }
    forall i | 0 <= i < |rest| ensures rest[i].attrs.name != items[0].attrs.name {
      assert rest[i] == items[i + 1];
    }
  }

  /**
   Over a listing without errors or repeated names, and with downloads that
   succeed, the loop downloads exactly the objects `Decide` selects against
   the local files present at the start, in listing order.
   */
  lemma {:induction false} SyncLoopFetchesSelected(cc: CollectConfig, items: seq<ListItem>, local: map<string, int>,
                                                  fetch: string -> Result<nat, string>, fetched: seq<string>)
    requires CleanListing(items)
    requires forall n :: fetch(n).Success?
    ensures SyncLoop(cc, items, local, fetch, fetched) == Synced([], fetched + Selected(cc, items, local), None)
    decreases |items|
  {
    if |items| == 0 {
      assert fetched + [] == fetched;
    } else {
      var attrs := items[0].attrs;
      var rest := items[1..];
      var sel := Selected(cc, rest, local);
      CleanListingTail(items);
      if Decide(cc, attrs, Lookup(local, attrs.name)) == Fetch {
        var n := fetch(attrs.name).value;
        assert Selected(cc, items, local) == [attrs.name] + sel by {
          assert SelectsAt(cc, items, local, 0, attrs.name);
        }
        assert SyncLoop(cc, items, local, fetch, fetched)
            == SyncLoop(cc, rest, local[attrs.name := n], fetch, fetched + [attrs.name]);
        assert SyncLoop(cc, rest, local[attrs.name := n], fetch, fetched + [attrs.name])
            == Synced([], (fetched + [attrs.name]) + sel, None) by {
          SyncLoopFetchesSelected(cc, rest, local[attrs.name := n], fetch, fetched + [attrs.name]);
          SelectedIgnoresOtherFiles(cc, rest, local, attrs.name, n);
        }
        AppendAssoc(fetched, [attrs.name], sel);
      } else {
        assert Selected(cc, items, local) == sel by {
          assert !SelectsAt(cc, items, local, 0, attrs.name);
        }
        assert SyncLoop(cc, items, local, fetch, fetched) == SyncLoop(cc, rest, local, fetch, fetched);
        SyncLoopFetchesSelected(cc, rest, local, fetch, fetched);
      }
    }
  }

  /**
   `syncFiles` downloads exactly the selected objects, and still returns an
   empty slice: nothing is ever appended to the slice it returns.
   */
  lemma SyncFilesFetchesSelected(cc: CollectConfig, items: seq<ListItem>, local: map<string, int>,
                                 fetch: string -> Result<nat, string>)
    requires CleanListing(items)
    requires forall n :: fetch(n).Success?
    ensures var o := SyncFiles(cc, items, local, fetch);
      && o.Synced?
      && o.returned == []
      && o.listError == None
      && o.fetched == Selected(cc, items, local)
  {
    SyncLoopFetchesSelected(cc, items, local, fetch, []);
    assert [] + Selected(cc, items, local) == Selected(cc, items, local);
  }

  /** A listing error ends the loop: nothing listed after it is looked at. */
  lemma {:induction false} ListErrorStops(cc: CollectConfig, before: seq<ListItem>, error: string, after1: seq<ListItem>,
                                         after2: seq<ListItem>, local: map<string, int>,
                                         fetch: string -> Result<nat, string>, fetched: seq<string>)
    ensures SyncLoop(cc, before + [ListError(error)] + after1, local, fetch, fetched)
         == SyncLoop(cc, before + [ListError(error)] + after2, local, fetch, fetched)
    decreases |before|
  {
    var x1 := before + [ListError(error)] + after1;
    var x2 := before + [ListError(error)] + after2;
    if |before| == 0 {
      assert x1[0] == ListError(error) && x2[0] == ListError(error);
    } else {
      assert x1[0] == x2[0] == before[0];
      assert x1[1..] == before[1..] + [ListError(error)] + after1;
      assert x2[1..] == before[1..] + [ListError(error)] + after2;
      match before[0]
      case ListError(_) =>
      case Listed(attrs) => {
        var lk := Lookup(local, attrs.name);
        if Decide(cc, attrs, lk) != Fetch {
          ListErrorStops(cc, before[1..], error, after1, after2, local, fetch, fetched);
        } else if fetch(attrs.name).Success? {
          var n := fetch(attrs.name).value;
          ListErrorStops(cc, before[1..], error, after1, after2, local[attrs.name := n], fetch, fetched + [attrs.name]);
        }
      }
    }
  }

  /** A failed download ends the run at that object. */
  lemma FetchFailureAborts(cc: CollectConfig, attrs: ObjectAttrs, rest: seq<ListItem>, local: map<string, int>,
                           fetch: string -> Result<nat, string>)
    requires Decide(cc, attrs, Lookup(local, attrs.name)) == Fetch && fetch(attrs.name).Failure?
    ensures SyncFiles(cc, [Listed(attrs)] + rest, local, fetch) == Aborted(attrs.name, fetch(attrs.name).error)
  {
  }
}

=== FILE: wrappers.dfy ===
/** Failure-carrying datatypes shared by the timeline and the copier models. */
module Wrappers {

  /** An optional value: a Go lookup that may find nothing, or a stat that may fail. */
  datatype Option<+T> = None | Some(value: T)

  /** A value or the error that prevented computing it (Go's `(T, error)` pair). */
  datatype Result<+R, +E> = Success(value: R) | Failure(error: E)
}
